=== FILE: README.md ===
# AI career path recommendation: a verified model

This project models the decision logic of a career recommendation web
application, written in Dafny. The application has two sides.

- A Python service scores a user profile against a fixed catalog of 24
  careers. It keeps the careers that score above 0.2 and returns the best
  three. When none qualifies, it returns the first three catalog entries with
  score 0.5. It also explains each recommendation with rule-based reasons and
  serves single careers and their learning roadmaps by id.
- A React client has a four-step profile wizard, a catalog browser with
  category and text filters, a results page and a career detail page. A small
  request wrapper classifies network failures.

Every operation is a pure function over immutable datatypes. Client
components are view-state records advanced by event functions. Network
answers and the language-model replies are parameters, so a single function
covers every answer they could give. The service is modelled on its
in-memory catalog, which is a parameter too; its database branches (the
regular-expression search capped at 50 results, `find_one` by id, the list
endpoint) are left out.

Modules, in dependency order:

- `Wrappers`: `Option` and `Result`.
- `Text`: ASCII lower-casing, substring containment, and JavaScript's `\s+` replacement.
- `Seqs`: order-preserving filtering and subsequences.
- `Model`: the records.
- `Catalog`: the 24 catalog entries and their invariants.
- `Matching`: the match score.
- `Reasoning`: the rule-based reasons.
- `Recommend`: selection, stable ranking, top three and fallback.
- `Lookup`: lookup by id, roadmap and the in-memory searches.
- `Api`: error classification in the request wrapper.
- `Wizard`: the profile form.
- `Browser`: the catalog browser.
- `Details`: the career detail page.
- `Results`: the results page.

Behaviours of the code that the model records:

- A negative experience is accepted. The form's number input has no minimum and the service declares a plain `int`. `Matching.NegativeExperienceBelowZero` shows the score then falls below 0.
- Skills and interests are duplicate-free lists in insertion order. `Wizard.RunPreservesValid` proves that no edit sequence creates a duplicate.
- The interest test is one-directional in the reasoning (server.py line 758) and two-directional in the score (lines 801-803). `Reasoning.InterestDirectionsDiffer` exhibits a profile that earns the interest weight but no interest sentence.
- The two in-memory search fallbacks differ. One searches title, description and category (lines 620-622). The other searches only title and description (lines 627-628). The client's own filter also searches required skills.
- A failed reload of the detail page keeps the previous career and roadmap on screen. Opening a career without a learning path, when the roadmap request fails, keeps the previous career's roadmap (`Details.StaleRoadmapKept`). No catalog entry lacks a learning path, so with the built-in catalog only the first case can arise.

## Model

| member | source | states |
|---|---|---|
| Catalog.CatalogWellFormed | backend/server.py:77-516 | the catalog has 24 entries; each has non-empty required and preferred skills, a six-step learning path, a salary range with 0 < min < max, and a growth potential in [0,100] |
| Catalog.CatalogIdsUnique | backend/server.py:77-516 | no two catalog entries share an id, so lookup by id is unambiguous |
| Catalog.CatalogTitlesUnique | backend/server.py:77-516 | no two catalog entries share a title |
| Catalog.CareerIdsInOrder | backend/server.py:77-516 | the catalog's ids, listed in catalog order |
| Matching.CountMatched | backend/server.py:777-779 | the number of career skills matched by some user skill (two-way lower-cased substring test); zero iff none is matched, the list length iff all are |
| Matching.CountMatchedMonotone | backend/server.py:777-779 | a profile with more skills never matches fewer career skills |
| Matching.Fraction | backend/server.py:780-781 | the weighted matched share lies in [0, weight] and reaches the weight iff every skill is matched |
| Matching.SkillPart | backend/server.py:776-791 | a skill list contributes between 0 and its weight |
| Matching.ExperienceScore | backend/server.py:794 | `min(years/5, 1)` is at most 1, equals 1 iff years >= 5, is non-negative for non-negative years and negative for negative years |
| Matching.MaxScore | backend/server.py:782-806 | the normaliser lies in [0.15, 1], so the division at line 808 is always defined |
| Matching.RawScore | backend/server.py:768-806 | the weighted sum never exceeds the normaliser and is non-negative for non-negative experience |
| Matching.MatchScore | backend/server.py:766-808 | the score is at most 1, and in [0,1] whenever experience is non-negative |
| Matching.MaxScoreIgnoresSkills | backend/server.py:776-806 | the normaliser depends only on the career and on whether interests are given, not on the skills |
| Matching.MoreSkillsNeverLowerScore | backend/server.py:771-808 | adding skills to a profile never lowers its score for any career |
| Matching.PerfectScoreIff | backend/server.py:766-808 | the score is exactly 1 iff all required and preferred skills match, experience is at least 5 years, and some interest matches whenever interests are given |
| Matching.NegativeExperienceBelowZero | backend/server.py:794-808 | with no skills, no interests and -5 years, the score is negative: the cap applies only from above |
| Reasoning.MatchingSkills | backend/server.py:749-751 | the matched required skills, in catalog order: each listed skill is matched by some profile skill, and every matched required skill is listed |
| Reasoning.MatchingSkillsAgreeWithScore | backend/server.py:749-751 | the reasoning lists exactly as many matched skills as the score counts |
| Reasoning.RuleBasedReasons | backend/server.py:747-762 | one to three reasons, each one of the four expected sentences, in the order skills, experience, interest; the skills reason (naming at most two matched skills) iff some skill matches; the experience reason iff years > 0; the interest reason iff some interest lies in the category; the growth reason iff none of the others applies |
| Reasoning.GrowthReasonIff | backend/server.py:753-762 | the default growth sentence appears exactly when no required skill is matched, experience is not positive, and no interest is contained in the category |
| Reasoning.InterestReasonImpliesScored | backend/server.py:758 | an interest credited by the reasoning is also credited by the score (lines 799-806) |
| Reasoning.InterestDirectionsDiffer | backend/server.py:758-803 | an interest that contains the category earns the score's interest weight but no interest sentence |
| Recommend.Scores | backend/server.py:652-653 | one match score per catalog entry, in catalog order |
| Recommend.Candidates | backend/server.py:652-670 | exactly the entries scoring above 0.2, in catalog order, each with its own score |
| Recommend.Insert | backend/server.py:673 | inserting into a ranked list keeps it ranked and adds exactly that element |
| Recommend.SortByScore | backend/server.py:673 | the stable descending sort: a permutation that puts higher scores first and keeps catalog order among equal scores |
| Recommend.Selected | backend/server.py:652-676 | at most three distinct qualifying entries, ranked; empty iff nothing scores above 0.2; any qualifying entry left out ranks after every chosen one, and then three were chosen |
| Recommend.RankingHoldsCandidates | backend/server.py:652-673 | the sorted list holds every qualifying entry and nothing else |
| Recommend.QualifiedPicks | backend/server.py:655-670 | each recommendation copies its entry's title, required skills, learning path, salary range and growth potential, with the entry's score; its reasoning is the generated text when the generator returns one, else the rule-based reasons for that entry |
| Recommend.FallbackPicks | backend/server.py:678-691 | the first min(3, n) catalog entries, in order, each with score 0.5 and the popular-career sentence |
| Recommend.GetRecommendations | backend/server.py:630-691 | at most three recommendations with non-increasing scores; when nothing scores above 0.2, exactly the first min(3, n) entries with score 0.5 |
| Recommend.QualifiedRecommendationsCopyCatalog | backend/server.py:652-676 | when some entry qualifies, every recommendation comes from a catalog entry scoring above 0.2 and copies that entry's fields and score, with generated reasoning when available and the rule-based reasons otherwise |
| Lookup.FindById | backend/server.py:586 | absent iff no entry has the id; otherwise the first entry with that id |
| Lookup.FindOwnId | backend/server.py:586 | in a catalog without repeated ids, each entry is found by its own id |
| Lookup.GetCareer | backend/server.py:583-593 | success iff an entry has the id, returning the first entry with that id; otherwise a 404 "Career not found" |
| Lookup.RoadmapSteps | backend/server.py:831-838 | without a language-model reply, the entry's own steps; an entry without steps never gets steps |
| Lookup.GetLearningRoadmap | backend/server.py:823-847 | a 404 naming the id iff no entry has it; otherwise, for the first entry with the id, its title, its served steps, its required and preferred skills, "6-12 months" and "Intermediate to Advanced" |
| Lookup.RoadmapWithoutAi | backend/server.py:823-847 | without a language-model key, the roadmap for an entry's id is that entry's learning path, skills and fixed labels |
| Lookup.SearchCareers | backend/server.py:618-623 | an order-preserving selection of the entries whose title, description or category contains the lower-cased query |
| Lookup.SearchCareersOnError | backend/server.py:624-628 | an order-preserving selection of the entries whose title or description contains the lower-cased query |
| Lookup.EmptySearchIsCatalog | backend/server.py:620-622 | an empty query returns the whole catalog |
| Lookup.SearchOnErrorNarrower | backend/server.py:620-628 | the error-path search keeps a subsequence of what the other fallback keeps |
| Lookup.SearchFallbacksDiffer | backend/server.py:620-628 | an entry that matches only through its category is found by one fallback and not the other |
| Api.Classify | src/lib/api.js:19-22 | an `ECONNREFUSED` code or a "Network Error" message becomes a fresh error with the replacement text; any other error is rethrown unchanged |
| Api.GetCareers | src/lib/api.js:12-24 | success returns the data unchanged; failure is classified with "Backend server is not running. Please start it on port 8000." |
| Api.GetRecommendations | src/lib/api.js:46-58 | success returns the data unchanged; failure is classified with "...Please start the backend server on port 8000." |
| Api.PassThrough | src/lib/api.js:26-34 | `getCareerById` returns the outcome unchanged, and so does `getLearningRoadmap`, whose body at src/lib/api.js lines 60-68 is the same |
| Api.UnreachableTextsNameCondition | src/lib/api.js:20-54 | both replacement texts contain "Backend server is not running" |
| Wizard.AddSkill | src/components/ProfileForm.js:26-31 | appends the skill and clears the input iff it is non-empty and absent; otherwise nothing changes; duplicate-freedom is kept; no other field changes |
| Wizard.RemoveSkill | src/components/ProfileForm.js:33-35 | keeps, in order, exactly the skills different from the removed one; no other field changes |
| Wizard.AddInterest | src/components/ProfileForm.js:37-42 | the same rules as adding a skill, for interests |
| Wizard.RemoveInterest | src/components/ProfileForm.js:44-46 | the same rules as removing a skill, for interests |
| Wizard.NextStep | src/components/ProfileForm.js:69 | one step forward, staying at 4 on the last step; nothing else changes |
| Wizard.PrevStep | src/components/ProfileForm.js:70 | one step back, staying at 1 on the first step; nothing else changes |
| Wizard.NextThenBack | src/components/ProfileForm.js:69-70 | from any step but the last, next then back returns to the same state |
| Wizard.ProgressWidth | src/components/ProfileForm.js:302 | the bar width lies in [0,100] on the four steps, is 0 exactly on the first step and 100 exactly on the last |
| Wizard.ProgressGrows | src/components/ProfileForm.js:302 | each forward step widens the bar |
| Wizard.RunPreservesValid | src/components/ProfileForm.js:26-70 | under any sequence of user actions (including the field setters at lines 209-267), both lists stay duplicate-free and the step stays in [1,4] |
| Wizard.InitialValid | src/components/ProfileForm.js:9-18 | the initial wizard is valid |
| Wizard.AddSkillNeverLowersScore | src/components/ProfileForm.js:26-31 | adding a skill in the wizard never lowers the service's score for any career |
| Wizard.ErrorText | src/components/ProfileForm.js:57 | the response's non-empty `detail`, else the non-empty message, else the fixed sentence; never empty |
| Wizard.AlertFor | src/components/ProfileForm.js:59-63 | the start-the-server alert iff the error text contains "Backend server is not running"; otherwise the alert shows the error text |
| Wizard.Submit | src/components/ProfileForm.js:48-67 | a successful response navigates to the results with the body and the submitted profile; a failure raises the alert chosen from the error after the request wrapper's remapping; loading ends and nothing else changes |
| Wizard.UnreachableShowsStartServer | src/components/ProfileForm.js:53-60 | an unreachable server always produces the start-the-server alert |
| Wizard.OtherFailureShowsText | src/components/ProfileForm.js:57-62 | any other failure whose text does not mention the condition shows its own text |
| Wizard.DefaultErrorTextIsGeneric | src/components/ProfileForm.js:57-62 | the fixed sentence does not mention the unreachable-server condition |
| Wizard.EmptyErrorShowsDefault | src/components/ProfileForm.js:57-62 | an error with empty detail and empty message shows the fixed sentence in the generic alert |
| Browser.FilterCareers | src/components/CareerBrowser.js:54-74 | an order-preserving subsequence holding exactly the careers in the selected category (any, for "all") whose title, description, category or some required skill contains the lower-cased query |
| Browser.NoFilterShowsAll | src/components/CareerBrowser.js:55-71 | with "all" and an empty query, every career is shown |
| Browser.UnusedCategoryShowsNothing | src/components/CareerBrowser.js:57-60 | a category no career has shows nothing, whatever the query |
| Browser.CategoryNarrows | src/components/CareerBrowser.js:57-71 | selecting a category shows a subsequence of what "all" shows for the same query |
| Browser.FilterAsOneWhere | src/components/CareerBrowser.js:54-74 | the two-stage filter equals one filter by the conjunction of both conditions |
| Browser.ClientFilterCoversServerSearch | src/components/CareerBrowser.js:62-71 | the client filter finds, in order, everything the service's search (backend/server.py lines 620-622) finds |
| Browser.SkillOnlyMatchDiffers | src/components/CareerBrowser.js:69 | a career matching only through a required skill is found by the client filter and not by the service's search |
| Browser.LoadCareers | src/components/CareerBrowser.js:23-52 | loading ends on every path; a failure raises the alert; an empty or non-array body schedules a retry; a non-empty list replaces the careers; the filters are untouched |
| Browser.FireRetry | src/components/CareerBrowser.js:34-44 | the retry clears the pending flag; when a retry was pending and it returned a non-empty list, that list becomes the careers, and otherwise the careers stay as they were; nothing else changes |
| Browser.RetryAtMostOnce | src/components/CareerBrowser.js:31-45 | a second firing of the retry changes nothing |
| Browser.FirstLoadShowsAll | src/components/CareerBrowser.js:28-30 | from the initial state, a non-empty list shows every career, with no alert and no retry |
| Browser.RetryShowsRetriedList | src/components/CareerBrowser.js:28-40 | from the initial state, an empty or malformed first response followed by a retry with a non-empty list shows every career of the retry, with no alert and nothing pending |
| Browser.NothingLoadedShowsNothing | src/components/CareerBrowser.js:28-45 | if neither the request nor its retry yields a non-empty list, the browser ends idle with nothing shown |
| Browser.ClearFilters | src/components/CareerBrowser.js:152-155 | clearing the filters shows every loaded career and changes nothing else |
| Browser.CategoryColor | src/components/CareerBrowser.js:76-86 | gray exactly for categories outside the six known ones |
| Browser.CategoryColorsDistinct | src/components/CareerBrowser.js:77-84 | the six known categories get six different colours |
| Browser.CatalogCategoriesSelectable | src/components/CareerBrowser.js:13-86 | every catalog entry's category is selectable, has a non-gray badge, and the category filter keeps that entry |
| Details.Fallback | src/components/CareerDetails.js:24-33 | present iff the career has a learning path (an empty one counts); then it carries the title, the path and the skills, with absent preferred skills as empty |
| Details.FallbackAgreesWithServer | src/components/CareerDetails.js:25-32 | the client fallback equals the service's roadmap for the same career without a language model (backend/server.py lines 840-847) |
| Details.LoadAlert | src/components/CareerDetails.js:46 | the alert names the error message, or "Unknown error" when it is empty |
| Details.LoadCareerDetails | src/components/CareerDetails.js:16-50 | loading ends on every path. A failed career request alerts and changes nothing else, and no roadmap request is made. Otherwise the career is set; a successful roadmap request replaces the roadmap; a failed one leaves the fallback, or the previous roadmap when there is no learning path |
| Details.Received | src/lib/api.js:26-68 | a service answer as the client receives it: success unchanged, an HTTP error with its `detail` |
| Details.FirstVisitAgainstService | src/components/CareerDetails.js:16-50 | on a first visit against the service's catalog, a known id shows the served career and served roadmap with no alert; an unknown id shows only the alert |
| Details.EndpointsAgreeOnMissing | backend/server.py:823-828 | the roadmap endpoint fails for exactly the ids the career endpoint (lines 583-590) rejects |
| Details.FailedReloadKeepsPrevious | src/components/CareerDetails.js:44-49 | a failed career request keeps the previously shown career and roadmap |
| Details.StaleRoadmapKept | src/components/CareerDetails.js:24-42 | moving to a career without a learning path while the roadmap request fails keeps another career's roadmap |
| Results.Round | src/components/Results.js:56 | `Math.round` on an exact value: the integer within half a unit, with halves rounding up |
| Results.Percent | src/components/Results.js:56 | the badge lies in [0,100] for scores in [0,1] and is within half a percent of the score |
| Results.PercentMonotone | src/components/Results.js:56 | a higher score never shows a lower percentage |
| Results.FallbackShowsHalf | src/components/Results.js:56 | the fallback score 0.5 shows as 50% |
| Results.Preview | src/components/Results.js:112 | exactly the first min(3, n) learning-path steps, in order |
| Results.Slug | src/components/Results.js:124 | the lower-cased title with every white-space run replaced by one hyphen: it contains no white space, and a title without white space is only lower-cased (the hyphen rule is stated by Results.SlugTwoWords and Text.ReplaceSpaceRunsRun) |
| Results.CardFor | src/components/Results.js:43-112 | card i is labelled #(i+1) and shows the title, the rounded percentage and the preview |
| Results.Render | src/components/Results.js:8-43 | the recovery view iff the state, its body or its recommendation list is missing (an empty list passes); otherwise one card per recommendation, in order |
| Results.ServiceAnswerRenders | src/components/Results.js:43-56 | for the service's answer to any profile: at most three cards, ranked 1, 2, 3, with percentages that never increase |
| Results.SlugTwoWords | src/components/Results.js:124 | a title of two space-free words becomes the lower-cased words joined by a hyphen |
| Results.FrontendSlugIsId | src/components/Results.js:124 | for "Frontend Developer" the slug is the catalog id |
| Results.FullStackSlugMissesCatalog | src/components/Results.js:124 | the slug of "Full-Stack Developer" is not its id (backend/server.py lines 116-117) and names no catalog entry |
| Results.UiUxSlugMissesCatalog | src/components/Results.js:124 | the slug of "UI/UX Designer" is not its id (backend/server.py lines 427-428) and names no catalog entry |
| Results.SlugLink | src/components/Results.js:124 | the link as written: the detail route `/careers/` followed by one segment without white space; a title without white space is only lower-cased |
| Results.CatalogLink | src/components/Results.js:124 | the intended link: the catalog id of the first entry with the recommended title, or the slug link when no entry has that title |
| Results.CatalogLinkOpensCareer | src/components/Results.js:124 | for every catalog entry, the intended link opens exactly that entry's detail page |

## Left out

- Database access. The service's database branches, the `/careers` list endpoint and start-up seeding are left out; only the in-memory catalog path is modelled. With a database, the search runs a case-insensitive regular expression over title, description, category and required skills, capped at 50 results, and `get_career` returns whichever document `find_one` yields; neither is modelled, because their results depend on the stored documents and on the database's regular-expression engine.
- Language-model calls. Reasoning text and enhanced roadmap steps are opaque parameters (`Career -> Option<string>`, `Option<seq<string>>`); `None` stands for "no key configured or the call failed".
- HTTP transport and routing. Requests are modelled as `Result` values. Route order is not modelled. `/careers/search` is declared after `/careers/{career_id}`, so the framework most likely routes it to the id handler; the two search functions model only the handler's body.
- Floating point. Scores, the 0.2 threshold, the progress width and `Math.round` use exact rationals. Binary doubles can round differently at the threshold or at a half percent.
- Text formatting. The formatting of reasons (`". ".join` and the `Match score: {score:.0%}` suffix), the profile summary, salary `toFixed` and the alert wording beyond the routing choice are left out. Reasons are kept as data.
- Unicode. Lower-casing is ASCII only; other case mappings are not modelled.
- Experience input. `parseInt` of an empty or non-numeric field yields `NaN`; the experience input is modelled as an integer.
- Timing and rendering. `setTimeout` delays, React re-render scheduling, unmount races, JSX, CSS classes, icons and console output are left out. Events are applied in sequence.
- Other client code. The static content of src/components/Home.js and the routing table in src/App.js are not part of this model; what the routes do with the two broken links in "## Findings" is read from that table, not proved. Neither is `searchCareers` in src/lib/api.js: the browser filters locally and never calls it.
- Results.CardFor: the card's link is the as-written slug link; the reasoning text is carried as data rather than rendered.
- Browser.CategoryColor: JavaScript object lookup would also return inherited properties for names such as "constructor"; only own keys are modelled.
- Wizard.Submit: submission is modelled from any step. The button appears only on step 4, and its disabled state while loading is not modelled.

## Findings

| source | as written | input that shows it | evidently intended | confidence | as-written member | corrected member |
|---|---|---|---|---|---|---|
| src/components/Results.js:124 | the "View Full Roadmap" link is the lower-cased title with white space replaced by hyphens | "Full-Stack Developer" links to `/careers/full-stack-developer`, which is not its id `fullstack-developer` and names no catalog entry. The route `/careers/:id` matches, the service answers 404, the detail page shows its load alert and then its "Career not found." view | link to the career's catalog id, `/careers/fullstack-developer` | high, not executed | Results.FullStackSlugMissesCatalog | Results.CatalogLinkOpensCareer |
| src/components/Results.js:124 | the same slug link | "UI/UX Designer" links to `/careers/ui/ux-designer`, which is not its id `ui-ux-designer` and names no catalog entry. The link has two path segments after `/careers`, so the single route `/careers/:id` (src/App.js line 19) does not match it and, with no catch-all route, no detail page is shown and no request is made | link to the career's catalog id, `/careers/ui-ux-designer` | high, not executed | Results.UiUxSlugMissesCatalog | Results.CatalogLinkOpensCareer |

=== FILE: api.dfy ===
/** The client's request wrapper: each call returns the response body on
    success; `getCareers` and `getRecommendations` replace transport failures
    (connection refused, network error) by a "server not running" error, and
    every other failure is rethrown unchanged. */
module Api {
  import opened Wrappers
  import opened Text

  /** A rejected request as the client sees it: the transport's error code
      (`error.code`), its message, and the `detail` field of an HTTP error
      body (`error.response.data.detail`), each possibly absent. */
  datatype ClientError = ClientError(code: Option<string>, message: string, detail: Option<string>)

  /** A fresh `Error(text)`: no code, no response. */
  function PlainError(text: string): ClientError {
    ClientError(None, text, None)
  }

  const ServerNotRunning := "Backend server is not running"
  const CareersUnreachable := ServerNotRunning + ". Please start it on port 8000."
  const RecommendationsUnreachable := ServerNotRunning + ". Please start the backend server on port 8000."

  /** The failure means the server could not be reached at all. */
  predicate Unreachable(e: ClientError) {
    e.code == Some("ECONNREFUSED") || Contains(e.message, "Network Error")
  }

  /** The error a wrapper rethrows: unreachable-server failures become a
      fresh error with `text`, anything else is passed on unchanged. */
  function Classify(e: ClientError, text: string): (r: ClientError)
    ensures Unreachable(e) ==> r == PlainError(text)
    ensures !Unreachable(e) ==> r == e
  {
    if Unreachable(e) then PlainError(text) else e
  }

  /** `getCareers`. */
  function GetCareers<T>(response: Result<T, ClientError>): (r: Result<T, ClientError>)
    ensures response.Success? ==> r == response
    ensures response.Failure? ==> r.Failure? && r.error == Classify(response.error, CareersUnreachable)
  {
    match response
    case Success(data) => Success(data)
    case Failure(e) => Failure(Classify(e, CareersUnreachable))
  }

  /** `getRecommendations`. */
  function GetRecommendations<T>(response: Result<T, ClientError>): (r: Result<T, ClientError>)
    ensures response.Success? ==> r == response
    ensures response.Failure? ==> r.Failure? && r.error == Classify(response.error, RecommendationsUnreachable)
  {
    match response
    case Success(data) => Success(data)
    case Failure(e) => Failure(Classify(e, RecommendationsUnreachable))
  }

  /** `getCareerById` and `getLearningRoadmap`: no remapping at all. */
  function PassThrough<T>(response: Result<T, ClientError>): (r: Result<T, ClientError>)
    ensures r == response
  {
    match response
    case Success(data) => Success(data)
    case Failure(e) => Failure(e)
  }

  /** Both unreachable-server texts name the condition, so a caller can
      recognise them by that phrase. */
  lemma UnreachableTextsNameCondition()
    ensures Contains(CareersUnreachable, ServerNotRunning)
    ensures Contains(RecommendationsUnreachable, ServerNotRunning)
  {
    ContainsPrefix(ServerNotRunning, ". Please start it on port 8000.");
    ContainsPrefix(ServerNotRunning, ". Please start the backend server on port 8000.");
  }
}

=== FILE: browser.dfy ===
/** The career browser: the catalog list as loaded from the service (with its
    single delayed retry), the category and text filters over it, and the
    category badge colours. */
module Browser {
  import opened Wrappers
  import opened Model
  import opened Text
  import opened Seqs
  import Api
  import Catalog
  import Lookup

  /** The entries of the category selector; "all" switches the filter off. */
  const Categories := ["all", "Software Development", "AI/ML", "Data", "Cloud/DevOps", "Cybersecurity", "Other"]
  const AllCategories := "all"

  predicate InCategory(c: Career, category: string) {
    category == AllCategories || c.category == category
  }

  /** Some required skill contains the query, case-insensitively. */
  predicate SkillMentions(c: Career, query: string) {
    exists i :: 0 <= i < |c.requiredSkills| && Contains(Lower(c.requiredSkills[i]), Lower(query))
  }

  /** The lower-cased query occurs in the title, description, category or one
      of the required skills. */
  predicate MatchesQuery(c: Career, query: string) {
    || Contains(Lower(c.title), Lower(query))
    || Contains(Lower(c.description), Lower(query))
    || Contains(Lower(c.category), Lower(query))
    || SkillMentions(c, query)
  }

  /** `filterCareers`: the category filter unless "all" is selected, then the
      text filter unless the query is empty. */
  function FilterCareers(careers: seq<Career>, category: string, query: string): (r: seq<Career>)
    ensures IsSubsequence(r, careers)
    ensures forall c :: c in r <==> c in careers && InCategory(c, category) && MatchesQuery(c, query)
  {
    var byCategory :=
      if category != AllCategories then Where(careers, (c: Career) => c.category == category) else careers;
    assert IsSubsequence(byCategory, careers) by {
      if category == AllCategories { SubsequenceReflexive(careers); }
    }
    assert forall c :: c in byCategory <==> c in careers && InCategory(c, category) by {
      forall c ensures c in byCategory <==> c in careers && InCategory(c, category) {
        if category != AllCategories {
          WhereMember(careers, (c: Career) => c.category == category, c);
        }
      }
    }
    var r := if query != "" then Where(byCategory, (c: Career) => MatchesQuery(c, query)) else byCategory;
    assert IsSubsequence(r, careers) by {
      if query != "" { SubsequenceTransitive(r, byCategory, careers); }
    }
    forall c ensures c in r <==> c in byCategory && MatchesQuery(c, query) {
      if query != "" {
        WhereMember(byCategory, (c: Career) => MatchesQuery(c, query), c);
      } else {
        ContainsEmpty(Lower(c.title));
      }
    }
    r
  }

  /** With no category and no query every loaded career is shown. */
  lemma NoFilterShowsAll(careers: seq<Career>)
    ensures FilterCareers(careers, AllCategories, "") == careers
  {
  }

  /** A category no career has yields an empty list, whatever the query. */
  lemma UnusedCategoryShowsNothing(careers: seq<Career>, category: string, query: string)
    requires category != AllCategories
    requires forall k :: 0 <= k < |careers| ==> careers[k].category != category
    ensures FilterCareers(careers, category, query) == []
  {
    var r := FilterCareers(careers, category, query);
    assert forall c :: c in r ==> c in careers && c.category == category;
  }

  /** The client's text filter finds everything the service's search finds:
      it tests the same three fields and also the required skills. */
  lemma ClientFilterCoversServerSearch(careers: seq<Career>, query: string)
    ensures IsSubsequence(Lookup.SearchCareers(careers, query), FilterCareers(careers, AllCategories, query))
  {
    if query != "" {
      WhereImplied(careers, (c: Career) => Lookup.MatchesSearch(c, query), (c: Career) => MatchesQuery(c, query));
    } else {
      Lookup.EmptySearchIsCatalog(careers);
      SubsequenceReflexive(careers);
    }
  }

  /** A career whose only match is a required skill is found by the client
      filter but not by the service's search. */
  lemma SkillOnlyMatchDiffers(c: Career, query: string)
    requires query != ""
    requires SkillMentions(c, query)
    requires !Lookup.MatchesSearch(c, query)
    ensures c in FilterCareers([c], AllCategories, query)
    ensures c !in Lookup.SearchCareers([c], query)
  {
  }

  /** The body of a careers response: a JSON array, or anything else (null,
      an object). */
  datatype Payload = CareerList(items: seq<Career>) | NotAList

  predicate Usable(data: Payload) {
    data.CareerList? && |data.items| > 0
  }

  /** The browser's component state; the shown list is derived from it. */
  datatype BrowserState = BrowserState(
    careers: seq<Career>,
    query: string,
    category: string,
    loading: bool,
    alerted: bool,
    retryPending: bool)

  const Initial := BrowserState([], "", AllCategories, true, false, false)

  /** The list on screen once the filtering effect has run. */
  function Shown(s: BrowserState): seq<Career> {
    FilterCareers(s.careers, s.category, s.query)
  }

  /** `loadCareers`. A usable list replaces the careers; an empty or
      malformed body schedules one retry; a failed request raises the alert.
      Loading ends on every path. */
  function LoadCareers(s: BrowserState, response: Result<Payload, Api.ClientError>): (r: BrowserState)
    ensures !r.loading
    ensures r.alerted <==> s.alerted || response.Failure?
    ensures r.retryPending <==> s.retryPending || (response.Success? && !Usable(response.value))
    ensures r.careers == (if response.Success? && Usable(response.value) then response.value.items else s.careers)
    ensures r.query == s.query && r.category == s.category
  {
    match Api.GetCareers(response)
    case Success(data) =>
      if Usable(data) then s.(careers := data.items, loading := false)
      else s.(retryPending := true, loading := false)
    case Failure(_) => s.(alerted := true, loading := false)
  }

  /** The delayed retry: a no-op unless one is pending; a usable list
      replaces the careers, anything else (including a failure) is only
      logged. */
  function FireRetry(s: BrowserState, response: Result<Payload, Api.ClientError>): (r: BrowserState)
    ensures !r.retryPending
    ensures r == s.(careers := r.careers, retryPending := false)
    ensures r.careers != s.careers ==>
      s.retryPending && response.Success? && Usable(response.value) && r.careers == response.value.items
    ensures s.retryPending && response.Success? && Usable(response.value) ==> r.careers == response.value.items
  {
    if !s.retryPending then s
    else
      match Api.GetCareers(response)
      case Success(data) =>
        if Usable(data) then s.(careers := data.items, retryPending := false)
        else s.(retryPending := false)
      case Failure(_) => s.(retryPending := false)
  }

  /** The request is retried at most once: a second firing changes nothing. */
  lemma RetryAtMostOnce(s: BrowserState, first: Result<Payload, Api.ClientError>, second: Result<Payload, Api.ClientError>)
    ensures FireRetry(FireRetry(s, first), second) == FireRetry(s, first)
  {
  }

  /** Starting from the initial state, a usable first response shows every
      career it lists, without an alert or a retry. */
  lemma FirstLoadShowsAll(items: seq<Career>)
    requires |items| > 0
    ensures var r := LoadCareers(Initial, Success(CareerList(items)));
      Shown(r) == items && !r.alerted && !r.retryPending && !r.loading
  {
    NoFilterShowsAll(items);
  }

  /** A first response without a usable list, followed by a retry that
      delivers one, shows every career the retry lists. */
  lemma RetryShowsRetriedList(first: Result<Payload, Api.ClientError>, items: seq<Career>)
    requires first.Success? && !Usable(first.value)
    requires |items| > 0
    ensures var r := FireRetry(LoadCareers(Initial, first), Success(CareerList(items)));
      Shown(r) == items && !r.alerted && !r.retryPending && !r.loading
  {
    NoFilterShowsAll(items);
  }

  /** If neither the first request nor its retry delivers a usable list, the
      browser ends idle with nothing to show. */
  lemma NothingLoadedShowsNothing(first: Result<Payload, Api.ClientError>, retry: Result<Payload, Api.ClientError>)
    requires !(first.Success? && Usable(first.value))
    requires !(retry.Success? && Usable(retry.value))
    ensures var r := FireRetry(LoadCareers(Initial, first), retry);
      Shown(r) == [] && !r.loading && !r.retryPending
  {
  }

  function SetQuery(s: BrowserState, query: string): BrowserState {
    s.(query := query)
  }

  function SetCategory(s: BrowserState, category: string): BrowserState {
    s.(category := category)
  }

  /** The "Clear filters" button. */
  function ClearFilters(s: BrowserState): (r: BrowserState)
    ensures Shown(r) == r.careers == s.careers
    ensures r == s.(query := r.query, category := r.category)
  {
    NoFilterShowsAll(s.careers);
    s.(query := "", category := AllCategories)
  }

  /** Narrowing by a category never shows a career the unfiltered view of
      the same query hides. */
  lemma CategoryNarrows(s: BrowserState, category: string)
    ensures IsSubsequence(Shown(SetCategory(s, category)), Shown(SetCategory(s, AllCategories)))
  {
    var q := s.query;
    if category != AllCategories {
      FilterAsOneWhere(s.careers, category, q);
      FilterAsOneWhere(s.careers, AllCategories, q);
      WhereImplied(s.careers, (c: Career) => InCategory(c, category) && MatchesQuery(c, q),
        (c: Career) => InCategory(c, AllCategories) && MatchesQuery(c, q));
    } else {
      SubsequenceReflexive(Shown(s.(category := AllCategories)));
    }
  }

  /** The two-stage filter equals a single filter by both conditions. */
  lemma FilterAsOneWhere(careers: seq<Career>, category: string, query: string)
    ensures FilterCareers(careers, category, query) ==
      Where(careers, (c: Career) => InCategory(c, category) && MatchesQuery(c, query))
  {
    var both := (c: Career) => InCategory(c, category) && MatchesQuery(c, query);
    if category != AllCategories {
      if query != "" {
        WhereWhere(careers, (c: Career) => c.category == category, (c: Career) => MatchesQuery(c, query), both);
      } else {
        forall c: Career ensures (c.category == category) == both(c) {
          ContainsEmpty(Lower(c.title));
        }
        WhereSame(careers, (c: Career) => c.category == category, both);
      }
    } else {
      if query != "" {
        WhereSame(careers, (c: Career) => MatchesQuery(c, query), both);
      } else {
        forall i | 0 <= i < |careers| ensures both(careers[i]) {
          ContainsEmpty(Lower(careers[i].title));
        }
        WhereAll(careers, both);
      }
    }
  }

  /** Filtering twice is filtering once by the conjunction. */
  lemma {:induction false} WhereWhere(s: seq<Career>, p: Career -> bool, q: Career -> bool, pq: Career -> bool)
    requires forall x :: pq(x) == (p(x) && q(x))
    ensures Where(Where(s, p), q) == Where(s, pq)
    decreases |s|
  {
    if |s| > 0 {
      WhereWhere(s[1..], p, q, pq);
      if p(s[0]) {
        assert Where(s, p) == [s[0]] + Where(s[1..], p);
        assert Where(s, p)[1..] == Where(s[1..], p);
      }
    }
  }

  /** Filters that agree everywhere keep the same elements. */
  lemma {:induction false} WhereSame(s: seq<Career>, p: Career -> bool, q: Career -> bool)
    requires forall x :: p(x) == q(x)
    ensures Where(s, p) == Where(s, q)
    decreases |s|
  {
    if |s| > 0 {
      WhereSame(s[1..], p, q);
    }
  }

  const Gray := "bg-gray-100 text-gray-800"

  /** `getCategoryColor`: a badge colour per known category, gray otherwise. */
  function CategoryColor(category: string): (r: string)
    ensures r == Gray <==> category !in Categories[1..]
  {
    match category
    case "Software Development" => "bg-blue-100 text-blue-800"
    case "AI/ML" => "bg-purple-100 text-purple-800"
    case "Data" => "bg-green-100 text-green-800"
    case "Cloud/DevOps" => "bg-orange-100 text-orange-800"
    case "Cybersecurity" => "bg-red-100 text-red-800"
    case "Other" => "bg-indigo-100 text-indigo-800"
    case _ => Gray
  }

  /** The six known categories get six different colours. */
  lemma CategoryColorsDistinct(a: string, b: string)
    requires a in Categories[1..] && b in Categories[1..] && a != b
    ensures CategoryColor(a) != CategoryColor(b)
  {
  }

  /** Every catalog entry belongs to a selectable category, so it has a
      coloured badge and the category filter can isolate it. */
  lemma CatalogCategoriesSelectable(k: nat)
    requires k < |Catalog.CareerDatabase|
    ensures var c := Catalog.CareerDatabase[k];
      && c.category in Categories[1..]
      && CategoryColor(c.category) != Gray
      && c in FilterCareers(Catalog.CareerDatabase, c.category, "")
  {
    var c := Catalog.CareerDatabase[k];
    CatalogCategoryKnown(k);
    ContainsEmpty(Lower(c.title));
    assert c in Catalog.CareerDatabase;
  }

  lemma CatalogCategoryKnown(k: nat)
    requires k < |Catalog.CareerDatabase|
    ensures Catalog.CareerDatabase[k].category in Categories[1..]
  {
  }
}

=== FILE: catalog.dfy ===
/** The service's in-memory career catalog, entry for entry, and the
    invariants it satisfies. */
module Catalog {
  import opened Wrappers
  import opened Model

  const FrontendDeveloper := Career(
    "frontend-developer", "Frontend Developer", "Software Development",
    "Build user-facing web applications using modern frameworks like React, Vue, or Angular",
    ["HTML", "CSS", "JavaScript", "React", "TypeScript", "Responsive Design"],
    Some(["Vue.js", "Angular", "Next.js", "GraphQL", "Webpack"]),
    Salary(60000, 120000, "USD"), 90,
    Some([
      "Master HTML5 and CSS3 fundamentals",
      "Learn JavaScript ES6+ and modern frameworks",
      "Build projects with React or Vue.js",
      "Learn state management (Redux, Vuex)",
      "Master responsive design and accessibility",
      "Build portfolio with 5+ projects"]))

  const BackendDeveloper := Career(
    "backend-developer", "Backend Developer", "Software Development",
    "Develop server-side logic, APIs, and database systems",
    ["Python", "Node.js", "SQL", "REST APIs", "Database Design"],
    Some(["Django", "Flask", "Express", "PostgreSQL", "MongoDB", "GraphQL"]),
    Salary(70000, 130000, "USD"), 88,
    Some([
      "Learn Python or Node.js fundamentals",
      "Master database design and SQL",
      "Build RESTful APIs",
      "Learn authentication and security",
      "Understand microservices architecture",
      "Deploy applications to cloud platforms"]))

  const FullstackDeveloper := Career(
    "fullstack-developer", "Full-Stack Developer", "Software Development",
    "Work on both frontend and backend development",
    ["JavaScript", "React", "Node.js", "SQL", "REST APIs"],
    Some(["TypeScript", "Next.js", "MongoDB", "Docker", "AWS"]),
    Salary(75000, 140000, "USD"), 92,
    Some([
      "Master frontend frameworks (React, Vue)",
      "Learn backend development (Node.js, Python)",
      "Understand database systems",
      "Learn DevOps and deployment",
      "Build full-stack applications",
      "Master version control and collaboration"]))

  const MobileDeveloper := Career(
    "mobile-developer", "Mobile Developer", "Software Development",
    "Develop native or cross-platform mobile applications",
    ["React Native", "Swift", "Kotlin", "Mobile UI/UX"],
    Some(["Flutter", "iOS Development", "Android Development", "Firebase"]),
    Salary(70000, 130000, "USD"), 85,
    Some([
      "Learn React Native or Flutter",
      "Understand mobile app architecture",
      "Master mobile UI/UX design principles",
      "Learn app store deployment",
      "Build and publish mobile apps",
      "Understand push notifications and analytics"]))

  const DataScientist := Career(
    "data-scientist", "Data Scientist", "AI/ML",
    "Analyze data and build ML models to solve business problems",
    ["Python", "SQL", "Machine Learning", "Statistics", "Data Analysis"],
    Some(["TensorFlow", "PyTorch", "Pandas", "NumPy", "Tableau", "AWS"]),
    Salary(80000, 150000, "USD"), 95,
    Some([
      "Master Python for data science",
      "Learn statistics and probability",
      "Study machine learning algorithms",
      "Practice with real datasets",
      "Learn data visualization tools",
      "Build ML models and deploy them"]))

  const MlEngineer := Career(
    "ml-engineer", "ML Engineer", "AI/ML",
    "Design and deploy machine learning systems at scale",
    ["Python", "TensorFlow", "PyTorch", "MLOps", "Cloud Computing"],
    Some(["Kubernetes", "Docker", "AWS", "MLflow", "Airflow"]),
    Salary(100000, 180000, "USD"), 98,
    Some([
      "Master deep learning frameworks",
      "Learn MLOps and model deployment",
      "Understand cloud platforms (AWS, GCP)",
      "Learn containerization (Docker, Kubernetes)",
      "Build end-to-end ML pipelines",
      "Master model monitoring and optimization"]))

  const NlpEngineer := Career(
    "nlp-engineer", "NLP Engineer", "AI/ML",
    "Develop natural language processing systems and applications",
    ["Python", "NLP", "Transformers", "Deep Learning", "Text Processing"],
    Some(["BERT", "GPT", "Hugging Face", "spaCy", "NLTK"]),
    Salary(95000, 170000, "USD"), 96,
    Some([
      "Learn NLP fundamentals",
      "Master transformer architectures",
      "Work with pre-trained models",
      "Build NLP applications",
      "Learn model fine-tuning",
      "Deploy NLP systems to production"]))

  const ComputerVisionEngineer := Career(
    "computer-vision-engineer", "Computer Vision Engineer", "AI/ML",
    "Develop computer vision and image processing systems",
    ["Python", "OpenCV", "Deep Learning", "Image Processing", "CNN"],
    Some(["TensorFlow", "PyTorch", "YOLO", "Image Classification"]),
    Salary(95000, 170000, "USD"), 94,
    Some([
      "Learn computer vision fundamentals",
      "Master OpenCV and image processing",
      "Study CNN architectures",
      "Build image classification models",
      "Learn object detection",
      "Deploy CV systems to production"]))

  const AiResearcher := Career(
    "ai-researcher", "AI Researcher", "AI/ML",
    "Conduct research in artificial intelligence and machine learning",
    ["Python", "Research", "Mathematics", "Deep Learning", "Publications"],
    Some(["PyTorch", "TensorFlow", "Research Papers", "PhD"]),
    Salary(120000, 200000, "USD"), 99,
    Some([
      "Pursue advanced degree (Master's/PhD)",
      "Read and understand research papers",
      "Contribute to open-source projects",
      "Publish research papers",
      "Attend conferences and workshops",
      "Build cutting-edge AI systems"]))

  const DeepLearningEngineer := Career(
    "deep-learning-engineer", "Deep Learning Engineer", "AI/ML",
    "Specialize in deep learning architectures and neural networks",
    ["Python", "Deep Learning", "Neural Networks", "TensorFlow", "PyTorch"],
    Some(["CNN", "RNN", "GAN", "Transfer Learning", "GPU Computing"]),
    Salary(105000, 185000, "USD"), 97,
    Some([
      "Master neural network fundamentals",
      "Learn deep learning frameworks",
      "Study advanced architectures",
      "Work with GPUs and distributed training",
      "Build complex DL models",
      "Optimize and deploy models"]))

  const MlopsEngineer := Career(
    "mlops-engineer", "MLOps Engineer", "AI/ML",
    "Operationalize machine learning models and pipelines",
    ["Python", "MLOps", "Docker", "Kubernetes", "CI/CD"],
    Some(["MLflow", "Kubeflow", "Airflow", "AWS SageMaker", "Monitoring"]),
    Salary(110000, 180000, "USD"), 95,
    Some([
      "Learn DevOps fundamentals",
      "Master containerization (Docker)",
      "Learn orchestration (Kubernetes)",
      "Understand ML pipeline tools",
      "Build automated ML workflows",
      "Master model monitoring and versioning"]))

  const DataAnalyst := Career(
    "data-analyst", "Data Analyst", "Data",
    "Analyze data to provide insights and support business decisions",
    ["SQL", "Excel", "Python", "Data Visualization", "Statistics"],
    Some(["Tableau", "Power BI", "Pandas", "R", "Business Intelligence"]),
    Salary(60000, 100000, "USD"), 85,
    Some([
      "Master SQL and database queries",
      "Learn data visualization tools",
      "Study statistics and analytics",
      "Practice with real business data",
      "Build dashboards and reports",
      "Understand business metrics"]))

  const DataEngineer := Career(
    "data-engineer", "Data Engineer", "Data",
    "Design and build data pipelines and infrastructure",
    ["Python", "SQL", "ETL", "Big Data", "Data Pipelines"],
    Some(["Apache Spark", "Airflow", "Kafka", "AWS", "Hadoop"]),
    Salary(85000, 140000, "USD"), 90,
    Some([
      "Master SQL and databases",
      "Learn ETL processes",
      "Understand big data technologies",
      "Build data pipelines",
      "Learn cloud data services",
      "Master data warehousing"]))

  const BusinessIntelligenceDeveloper := Career(
    "business-intelligence-developer", "Business Intelligence Developer", "Data",
    "Create BI solutions and dashboards for business insights",
    ["SQL", "BI Tools", "Data Warehousing", "ETL", "Analytics"],
    Some(["Tableau", "Power BI", "Qlik", "SSAS", "Data Modeling"]),
    Salary(70000, 120000, "USD"), 87,
    Some([
      "Master SQL and data modeling",
      "Learn BI tools (Tableau, Power BI)",
      "Understand data warehousing",
      "Build interactive dashboards",
      "Learn ETL processes",
      "Understand business requirements"]))

  const DevopsEngineer := Career(
    "devops-engineer", "DevOps Engineer", "Cloud/DevOps",
    "Automate infrastructure and deployment processes",
    ["Linux", "Docker", "Kubernetes", "CI/CD", "AWS"],
    Some(["Terraform", "Ansible", "Jenkins", "GitLab CI", "Monitoring"]),
    Salary(85000, 140000, "USD"), 92,
    Some([
      "Master Linux and shell scripting",
      "Learn containerization (Docker)",
      "Understand orchestration (Kubernetes)",
      "Build CI/CD pipelines",
      "Learn infrastructure as code",
      "Master cloud platforms"]))

  const CloudArchitect := Career(
    "cloud-architect", "Cloud Architect", "Cloud/DevOps",
    "Design and implement cloud infrastructure solutions",
    ["AWS", "Azure", "GCP", "Architecture", "Cloud Security"],
    Some(["Terraform", "CloudFormation", "Kubernetes", "Serverless"]),
    Salary(100000, 160000, "USD"), 93,
    Some([
      "Get cloud certifications (AWS, Azure, GCP)",
      "Learn infrastructure as code",
      "Understand cloud architecture patterns",
      "Master security and compliance",
      "Design scalable systems",
      "Lead cloud migration projects"]))

  const SiteReliabilityEngineer := Career(
    "site-reliability-engineer", "Site Reliability Engineer", "Cloud/DevOps",
    "Ensure system reliability and performance",
    ["Linux", "Monitoring", "Incident Response", "Automation", "SRE"],
    Some(["Prometheus", "Grafana", "Kubernetes", "Python", "Go"]),
    Salary(95000, 150000, "USD"), 91,
    Some([
      "Master system administration",
      "Learn monitoring and observability",
      "Understand incident management",
      "Build automation tools",
      "Learn SRE principles",
      "Master reliability engineering"]))

  const SecurityEngineer := Career(
    "security-engineer", "Security Engineer", "Cybersecurity",
    "Protect systems and networks from security threats",
    ["Cybersecurity", "Network Security", "Security Tools", "Risk Assessment"],
    Some(["Penetration Testing", "SIEM", "Firewalls", "Encryption", "Compliance"]),
    Salary(80000, 140000, "USD"), 94,
    Some([
      "Learn cybersecurity fundamentals",
      "Study network security",
      "Master security tools",
      "Get security certifications",
      "Practice ethical hacking",
      "Build security systems"]))

  const PenetrationTester := Career(
    "penetration-tester", "Penetration Tester", "Cybersecurity",
    "Test systems for security vulnerabilities",
    ["Penetration Testing", "Ethical Hacking", "Security Tools", "Vulnerability Assessment"],
    Some(["Kali Linux", "Metasploit", "OWASP", "Certifications", "Reporting"]),
    Salary(75000, 130000, "USD"), 89,
    Some([
      "Learn ethical hacking fundamentals",
      "Master penetration testing tools",
      "Get certifications (CEH, OSCP)",
      "Practice on vulnerable systems",
      "Learn reporting and documentation",
      "Build security testing skills"]))

  const UiUxDesigner := Career(
    "ui-ux-designer", "UI/UX Designer", "Other",
    "Design user interfaces and user experiences",
    ["UI Design", "UX Design", "Design Tools", "User Research", "Prototyping"],
    Some(["Figma", "Sketch", "Adobe XD", "User Testing", "Design Systems"]),
    Salary(65000, 120000, "USD"), 88,
    Some([
      "Learn design principles",
      "Master design tools (Figma, Sketch)",
      "Study user research methods",
      "Build design portfolio",
      "Learn prototyping",
      "Understand design systems"]))

  const ProductManager := Career(
    "product-manager", "Product Manager", "Other",
    "Manage product development and strategy",
    ["Product Management", "Strategy", "Analytics", "Communication", "Roadmapping"],
    Some(["Agile", "Scrum", "User Stories", "A/B Testing", "Stakeholder Management"]),
    Salary(90000, 160000, "USD"), 90,
    Some([
      "Learn product management fundamentals",
      "Master agile methodologies",
      "Understand analytics and metrics",
      "Build product strategy skills",
      "Learn stakeholder management",
      "Get product management certification"]))

  const QaEngineer := Career(
    "qa-engineer", "QA Engineer", "Other",
    "Test software for quality and bugs",
    ["Testing", "Test Automation", "QA", "Bug Tracking", "Test Planning"],
    Some(["Selenium", "Cypress", "Jest", "API Testing", "Performance Testing"]),
    Salary(60000, 110000, "USD"), 86,
    Some([
      "Learn testing fundamentals",
      "Master test automation tools",
      "Understand testing methodologies",
      "Build test frameworks",
      "Learn API and performance testing",
      "Get QA certifications"]))

  const BlockchainDeveloper := Career(
    "blockchain-developer", "Blockchain Developer", "Other",
    "Develop blockchain and cryptocurrency applications",
    ["Blockchain", "Solidity", "Smart Contracts", "Web3", "Cryptography"],
    Some(["Ethereum", "DeFi", "NFT", "Truffle", "Hardhat"]),
    Salary(90000, 160000, "USD"), 93,
    Some([
      "Learn blockchain fundamentals",
      "Master Solidity programming",
      "Build smart contracts",
      "Understand DeFi protocols",
      "Learn Web3 development",
      "Deploy blockchain applications"]))

  const GameDeveloper := Career(
    "game-developer", "Game Developer", "Other",
    "Develop video games and interactive experiences",
    ["Game Development", "Unity", "C#", "Game Design", "3D Graphics"],
    Some(["Unreal Engine", "Game Physics", "Animation", "Multiplayer", "VR/AR"]),
    Salary(65000, 120000, "USD"), 87,
    Some([
      "Learn game development fundamentals",
      "Master Unity or Unreal Engine",
      "Study game design principles",
      "Build game projects",
      "Learn 3D graphics and animation",
      "Publish games to app stores"]))

  const CareerDatabase: seq<Career> := [
    FrontendDeveloper,
    BackendDeveloper,
    FullstackDeveloper,
    MobileDeveloper,
    DataScientist,
    MlEngineer,
    NlpEngineer,
    ComputerVisionEngineer,
    AiResearcher,
    DeepLearningEngineer,
    MlopsEngineer,
    DataAnalyst,
    DataEngineer,
    BusinessIntelligenceDeveloper,
    DevopsEngineer,
    CloudArchitect,
    SiteReliabilityEngineer,
    SecurityEngineer,
    PenetrationTester,
    UiUxDesigner,
    ProductManager,
    QaEngineer,
    BlockchainDeveloper,
    GameDeveloper]

  /** Every entry is complete: required and preferred skills are present and
      non-empty, the learning path has six steps, the salary range is a proper
      positive interval and the growth potential is a percentage. */
  predicate WellFormed(c: Career) {
    && |c.requiredSkills| > 0
    && c.preferredSkills.Some? && |c.preferredSkills.value| > 0
    && c.learningPath.Some? && |c.learningPath.value| == 6
    && 0 < c.salary.min < c.salary.max
    && 0 <= c.growthPotential <= 100
  }

  lemma CatalogWellFormed()
    ensures |CareerDatabase| == 24
    ensures forall i :: 0 <= i < |CareerDatabase| ==> WellFormed(CareerDatabase[i])
  {
  }

  /** No two catalog entries share an id. */
  lemma CatalogIdsUnique()
    ensures forall i, j :: 0 <= i < j < |CareerDatabase| ==> CareerDatabase[i].id != CareerDatabase[j].id
  {
  }

  /** No two catalog entries share a title. */
  lemma CatalogTitlesUnique()
    ensures forall i, j :: 0 <= i < j < |CareerDatabase| ==> CareerDatabase[i].title != CareerDatabase[j].title
  {
  }

  /** The catalog's ids, in catalog order. */
  const CareerIds := [
    "frontend-developer",
    "backend-developer",
    "fullstack-developer",
    "mobile-developer",
    "data-scientist",
    "ml-engineer",
    "nlp-engineer",
    "computer-vision-engineer",
    "ai-researcher",
    "deep-learning-engineer",
    "mlops-engineer",
    "data-analyst",
    "data-engineer",
    "business-intelligence-developer",
    "devops-engineer",
    "cloud-architect",
    "site-reliability-engineer",
    "security-engineer",
    "penetration-tester",
    "ui-ux-designer",
    "product-manager",
    "qa-engineer",
    "blockchain-developer",
    "game-developer"]

  lemma CareerIdsInOrder()
    ensures |CareerIds| == |CareerDatabase|
    ensures forall k :: 0 <= k < |CareerDatabase| ==> CareerDatabase[k].id == CareerIds[k]
  {
  }
}

=== FILE: details.dfy ===
/** The career detail page: it loads one career, shows a roadmap derived from
    the career's own learning path at once, and replaces it by the roadmap
    endpoint's answer when that request succeeds. */
module Details {
  import opened Wrappers
  import opened Model
  import Api
  import Lookup

  /** The page's component state; `alert` is the text of the most recent
      alert raised by a failed career request, if any (a successful load
      leaves it as it was). */
  datatype DetailsState = DetailsState(
    career: Option<Career>,
    roadmap: Option<RoadmapView>,
    loading: bool,
    alert: Option<string>)

  const Initial := DetailsState(None, None, true, None)

  /** The roadmap the page derives from a career, present exactly when the
      career carries a learning path (an empty list counts as present). */
  function Fallback(c: Career): (r: Option<RoadmapView>)
    ensures r.Some? <==> c.learningPath.Some?
    ensures r.Some? ==>
      && r.value.career == c.title
      && r.value.roadmap == c.learningPath.value
      && r.value.requiredSkills == c.requiredSkills
      && r.value.preferredSkills == c.preferredSkills.GetOr([])
  {
    match c.learningPath
    case Some(steps) =>
      Some(RoadmapView(c.title, steps, c.requiredSkills, c.preferredSkills.GetOr([]),
        DefaultEstimatedTime, DefaultDifficulty))
    case None => None
  }

  /** The client's fallback is what the roadmap endpoint serves when no
      language model is configured. */
  lemma FallbackAgreesWithServer(c: Career)
    requires c.learningPath.Some?
    ensures Fallback(c) == Some(Lookup.ServerRoadmap(c, None))
  {
  }

  /** The alert after a failed career request. */
  function LoadAlert(e: Api.ClientError): (r: string)
    ensures e.message != "" ==> r == "Error loading career: " + e.message
    ensures e.message == "" ==> r == "Error loading career: Unknown error"
  {
    "Error loading career: " + (if e.message != "" then e.message else "Unknown error")
  }

  /** `loadCareerDetails`, started from whatever the page showed before (the
      effect runs again when the route's id changes). The roadmap request is
      only made after the career request succeeds. */
  function LoadCareerDetails(
    prior: DetailsState,
    careerResp: Result<Career, Api.ClientError>,
    roadmapResp: Result<RoadmapView, Api.ClientError>): (r: DetailsState)
    ensures !r.loading
    ensures careerResp.Failure? ==>
      r == prior.(loading := false, alert := Some(LoadAlert(Api.PassThrough(careerResp).error)))
    ensures careerResp.Success? ==> r.career == Some(careerResp.value) && r.alert == prior.alert
    ensures careerResp.Success? && roadmapResp.Success? ==> r.roadmap == Some(roadmapResp.value)
    ensures careerResp.Success? && roadmapResp.Failure? ==>
      r.roadmap == (if careerResp.value.learningPath.Some? then Fallback(careerResp.value) else prior.roadmap)
  {
    match Api.PassThrough(careerResp)
    case Failure(e) => prior.(loading := false, alert := Some(LoadAlert(e)))
    case Success(c) =>
      var shown := if c.learningPath.Some? then Fallback(c) else prior.roadmap;
      var roadmap :=
        match Api.PassThrough(roadmapResp)
        case Success(view) => Some(view)
        case Failure(_) => shown;
      prior.(career := Some(c), roadmap := roadmap, loading := false)
  }

  /** An HTTP error from the service as the client receives it; `message`
      is the transport's own text. */
  function Received<T>(response: Result<T, HttpError>, message: string): (r: Result<T, Api.ClientError>)
    ensures response.Success? <==> r.Success?
    ensures response.Success? ==> r.value == response.value
    ensures response.Failure? ==> r.error == Api.ClientError(None, message, Some(response.error.detail))
  {
    match response
    case Success(v) => Success(v)
    case Failure(e) => Failure(Api.ClientError(None, message, Some(e.detail)))
  }

  /** Against the service's own catalog, a first visit shows the served
      career and its served roadmap; an unknown id shows the alert and
      nothing else. */
  lemma FirstVisitAgainstService(catalog: seq<Career>, id: string, aiSteps: Option<seq<string>>, message: string)
    requires message != ""
    ensures var r := LoadCareerDetails(Initial,
        Received(Lookup.GetCareer(catalog, id), message),
        Received(Lookup.GetLearningRoadmap(catalog, id, aiSteps), message));
      && !r.loading
      && (Lookup.FindById(catalog, id).Some? ==>
        && r.career == Lookup.FindById(catalog, id)
        && r.roadmap == Some(Lookup.ServerRoadmap(Lookup.FindById(catalog, id).value, aiSteps))
        && r.alert.None?)
      && (Lookup.FindById(catalog, id).None? ==>
        r == DetailsState(None, None, false, Some("Error loading career: " + message)))
  {
  }

  /** The career and roadmap endpoints fail for the same ids, so against a
      consistent service the fallback roadmap survives only transport
      failures of the second request. */
  lemma EndpointsAgreeOnMissing(catalog: seq<Career>, id: string, aiSteps: Option<seq<string>>)
    ensures Lookup.GetCareer(catalog, id).Failure? <==> Lookup.GetLearningRoadmap(catalog, id, aiSteps).Failure?
  {
  }

  /** A failed reload keeps showing the previous career and roadmap. */
  lemma FailedReloadKeepsPrevious(prior: DetailsState, e: Api.ClientError, roadmapResp: Result<RoadmapView, Api.ClientError>)
    ensures var r := LoadCareerDetails(prior, Failure(e), roadmapResp);
      r.career == prior.career && r.roadmap == prior.roadmap && r.alert.Some?
  {
  }

  /** Moving to a career without a learning path while the roadmap request
      fails keeps the previous career's roadmap on screen. */
  lemma StaleRoadmapKept(prior: DetailsState, c: Career, e: Api.ClientError)
    requires c.learningPath.None?
    requires prior.roadmap.Some? && prior.roadmap.value.career != c.title
    ensures var r := LoadCareerDetails(prior, Success(c), Failure(e));
      r.career == Some(c) && r.roadmap.Some? && r.roadmap.value.career != c.title
  {
  }
}

=== FILE: lookup.dfy ===
/** The service's in-memory lookups: a career by id, its learning roadmap,
    and the two substring searches used when the database is unavailable. */
module Lookup {
  import opened Wrappers
  import opened Model
  import opened Text
  import opened Seqs

  /** Position `k` holds the first entry with the given id. */
  predicate FirstWithId(catalog: seq<Career>, id: string, k: int) {
    0 <= k < |catalog| && catalog[k].id == id && forall j :: 0 <= j < k ==> catalog[j].id != id
  }

  /** The first catalog entry with the given id (Python's
      `next((c for c in catalog if c["id"] == id), None)`). */
  function FindById(catalog: seq<Career>, id: string): (r: Option<Career>)
    ensures r.None? <==> forall k :: 0 <= k < |catalog| ==> catalog[k].id != id
    ensures r.Some? ==> exists k :: FirstWithId(catalog, id, k) && catalog[k] == r.value
  {
    if |catalog| == 0 then None
    else if catalog[0].id == id then
      assert FirstWithId(catalog, id, 0);
      Some(catalog[0])
    else
      var r := FindById(catalog[1..], id);
      assert r.Some? ==> exists k :: FirstWithId(catalog, id, k) && catalog[k] == r.value by {
        if r.Some? {
          var k :| FirstWithId(catalog[1..], id, k) && catalog[1..][k] == r.value;
          assert forall j :: 1 <= j < k + 1 ==> catalog[j] == catalog[1..][j - 1];
          assert FirstWithId(catalog, id, k + 1);
        }
      }
      r
  }

  /** In a catalog without repeated ids, an entry is found by its own id. */
  lemma FindOwnId(catalog: seq<Career>, k: nat)
    requires k < |catalog|
    requires forall i, j :: 0 <= i < j < |catalog| ==> catalog[i].id != catalog[j].id
    ensures FindById(catalog, catalog[k].id) == Some(catalog[k])
  {
    var r := FindById(catalog, catalog[k].id);
    var m :| FirstWithId(catalog, catalog[k].id, m) && catalog[m] == r.value;
  }

  const NotFound := 404

  /** `get_career`: the entry, or a 404 "Career not found". */
  function GetCareer(catalog: seq<Career>, id: string): (r: Result<Career, HttpError>)
    ensures r.Success? <==> FindById(catalog, id).Some?
    ensures r.Success? ==> r.value.id == id && r.value in catalog
    ensures r.Success? ==> exists k :: FirstWithId(catalog, id, k) && r.value == catalog[k]
    ensures r.Failure? ==> r.error == HttpError(NotFound, "Career not found")
  {
    match FindById(catalog, id)
    case Some(c) => Success(c)
    case None => Failure(HttpError(NotFound, "Career not found"))
  }

  /** The steps the roadmap endpoint serves. `aiSteps` is the parsed reply of
      the language-model call: absent when no key is configured or the call
      failed. The model is only consulted when the entry has steps, and an
      empty reply falls back to the entry's own steps. */
  function RoadmapSteps(c: Career, aiSteps: Option<seq<string>>): (r: seq<string>)
    ensures aiSteps.None? ==> r == c.learningPath.GetOr([])
    ensures |c.learningPath.GetOr([])| == 0 ==> r == []
    ensures |r| > 0 <==> |c.learningPath.GetOr([])| > 0
  {
    var base := c.learningPath.GetOr([]);
    if |base| > 0 && aiSteps.Some? && |aiSteps.value| > 0 then aiSteps.value else base
  }

  /** The roadmap record the endpoint builds from a catalog entry. */
  function ServerRoadmap(c: Career, aiSteps: Option<seq<string>>): RoadmapView {
    RoadmapView(
      c.title, RoadmapSteps(c, aiSteps), c.requiredSkills, c.preferredSkills.GetOr([]),
      DefaultEstimatedTime, DefaultDifficulty)
  }

  /** `get_learning_roadmap`. */
  function GetLearningRoadmap(catalog: seq<Career>, id: string, aiSteps: Option<seq<string>>): (r: Result<RoadmapView, HttpError>)
    ensures r.Failure? <==> forall k :: 0 <= k < |catalog| ==> catalog[k].id != id
    ensures r.Failure? ==> r.error == HttpError(NotFound, "Career with id '" + id + "' not found")
    ensures r.Success? ==> exists k ::
      && FirstWithId(catalog, id, k)
      && r.value.career == catalog[k].title
      && r.value.roadmap == RoadmapSteps(catalog[k], aiSteps)
      && r.value.requiredSkills == catalog[k].requiredSkills
      && r.value.preferredSkills == catalog[k].preferredSkills.GetOr([])
      && r.value.estimatedTime == "6-12 months"
      && r.value.difficulty == "Intermediate to Advanced"
  {
    match FindById(catalog, id)
    case Some(c) => Success(ServerRoadmap(c, aiSteps))
    case None => Failure(HttpError(NotFound, "Career with id '" + id + "' not found"))
  }

  /** Without a language-model key the roadmap is the first entry with that
      id, served with its own learning path, skills and the fixed labels. */
  lemma RoadmapWithoutAi(catalog: seq<Career>, k: nat)
    requires k < |catalog|
    requires forall j :: 0 <= j < k ==> catalog[j].id != catalog[k].id
    ensures var c := catalog[k];
      GetLearningRoadmap(catalog, c.id, None) == Success(RoadmapView(
        c.title, c.learningPath.GetOr([]), c.requiredSkills, c.preferredSkills.GetOr([]),
        "6-12 months", "Intermediate to Advanced"))
  {
    var r := FindById(catalog, catalog[k].id);
    var m :| FirstWithId(catalog, catalog[k].id, m) && catalog[m] == r.value;
    assert m == k;
  }

  /** The search used when the database returns nothing: query in title,
      description or category, all lower-cased. */
  predicate MatchesSearch(c: Career, q: string) {
    || Contains(Lower(c.title), Lower(q))
    || Contains(Lower(c.description), Lower(q))
    || Contains(Lower(c.category), Lower(q))
  }

  /** The search used when the database raises: title or description only. */
  predicate MatchesSearchOnError(c: Career, q: string) {
    Contains(Lower(c.title), Lower(q)) || Contains(Lower(c.description), Lower(q))
  }

  function SearchCareers(catalog: seq<Career>, q: string): (r: seq<Career>)
    ensures IsSubsequence(r, catalog)
    ensures forall c :: c in r <==> c in catalog && MatchesSearch(c, q)
  {
    var r := Where(catalog, (c: Career) => MatchesSearch(c, q));
    forall c ensures c in r <==> c in catalog && MatchesSearch(c, q) {
      WhereMember(catalog, (c: Career) => MatchesSearch(c, q), c);
    }
    r
  }

  function SearchCareersOnError(catalog: seq<Career>, q: string): (r: seq<Career>)
    ensures IsSubsequence(r, catalog)
    ensures forall c :: c in r <==> c in catalog && MatchesSearchOnError(c, q)
  {
    var r := Where(catalog, (c: Career) => MatchesSearchOnError(c, q));
    forall c ensures c in r <==> c in catalog && MatchesSearchOnError(c, q) {
      WhereMember(catalog, (c: Career) => MatchesSearchOnError(c, q), c);
    }
    r
  }

  /** An empty query matches every entry. */
  lemma EmptySearchIsCatalog(catalog: seq<Career>)
    ensures SearchCareers(catalog, "") == catalog
  {
    forall i | 0 <= i < |catalog| ensures MatchesSearch(catalog[i], "") {
      ContainsEmpty(Lower(catalog[i].title));
    }
    WhereAll(catalog, (c: Career) => MatchesSearch(c, ""));
  }

  /** The error-path search keeps a subsequence of what the other search
      keeps: it drops exactly the entries matched only through the category. */
  lemma {:induction false} SearchOnErrorNarrower(catalog: seq<Career>, q: string)
    ensures IsSubsequence(SearchCareersOnError(catalog, q), SearchCareers(catalog, q))
  {
    if |catalog| > 0 {
      SearchOnErrorNarrower(catalog[1..], q);
      var r := SearchCareers(catalog, q);
      var r' := SearchCareersOnError(catalog, q);
      if MatchesSearch(catalog[0], q) && !MatchesSearchOnError(catalog[0], q) {
        SubsequenceWeaken(r', r);
      }
    }
  }

  /** An entry whose category alone contains the query is found by one
      search and not by the other. */
  lemma SearchFallbacksDiffer(c: Career, q: string)
    requires Contains(Lower(c.category), Lower(q))
    requires !Contains(Lower(c.title), Lower(q)) && !Contains(Lower(c.description), Lower(q))
    ensures c in SearchCareers([c], q) && c !in SearchCareersOnError([c], q)
  {
  }
}

=== FILE: matching.dfy ===
/** The service's match score between a profile and a catalog entry: a
    weighted ratio of required-skill overlap (0.5), preferred-skill overlap
    (0.2), experience (0.15) and interest/category match (0.15), normalised by
    the weights that apply to this pair and capped at 1. */
module Matching {
  import opened Wrappers
  import opened Model
  import opened Text

  const RequiredWeight: real := 0.5
  const PreferredWeight: real := 0.2
  const ExperienceWeight: real := 0.15
  const InterestWeight: real := 0.15

  /** Years of experience that earn the full experience weight. */
  const FullExperienceYears: real := 5.0

  function Min(a: real, b: real): real {
    if a <= b then a else b
  }

  /** A user skill and a career skill match when either one, lower-cased, is
      a substring of the other. */
  predicate SkillsMatch(userSkill: string, careerSkill: string) {
    Contains(Lower(careerSkill), Lower(userSkill)) || Contains(Lower(userSkill), Lower(careerSkill))
  }

  /** Some skill of the profile matches `careerSkill`. */
  predicate Matched(careerSkill: string, userSkills: seq<string>) {
    exists k :: 0 <= k < |userSkills| && SkillsMatch(userSkills[k], careerSkill)
  }

  /** The number of career skills matched by some user skill. */
  function CountMatched(careerSkills: seq<string>, userSkills: seq<string>): (n: nat)
    ensures n <= |careerSkills|
    ensures n == 0 <==> forall i :: 0 <= i < |careerSkills| ==> !Matched(careerSkills[i], userSkills)
    ensures n == |careerSkills| <==> forall i :: 0 <= i < |careerSkills| ==> Matched(careerSkills[i], userSkills)
  {
    if |careerSkills| == 0 then 0
    else (if Matched(careerSkills[0], userSkills) then 1 else 0) + CountMatched(careerSkills[1..], userSkills)
  }

  /** More user skills never match fewer career skills. */
  lemma {:induction false} CountMatchedMonotone(careerSkills: seq<string>, userSkills: seq<string>, more: seq<string>)
    requires forall u :: u in userSkills ==> u in more
    ensures CountMatched(careerSkills, userSkills) <= CountMatched(careerSkills, more)
  {
    if |careerSkills| > 0 {
      if Matched(careerSkills[0], userSkills) {
        var k :| 0 <= k < |userSkills| && SkillsMatch(userSkills[k], careerSkills[0]);
        assert userSkills[k] in more;
        var k' :| 0 <= k' < |more| && more[k'] == userSkills[k];
        assert Matched(careerSkills[0], more);
      }
      CountMatchedMonotone(careerSkills[1..], userSkills, more);
    }
  }

  /** `n / total * weight`: the weighted share of matched skills. */
  function Fraction(n: nat, total: nat, weight: real): (r: real)
    requires 0 < total && n <= total && weight >= 0.0
    ensures 0.0 <= r <= weight
    ensures r == weight <==> n == total || weight == 0.0
  {
    var f := n as real / total as real;
    DivideBounds(n as real, total as real);
    ScaleMonotone(0.0, f, weight);
    ScaleMonotone(f, 1.0, weight);
    assert f * weight == weight <==> f == 1.0 || weight == 0.0 by {
      if weight != 0.0 && f != 1.0 {
        assert (1.0 - f) * weight > 0.0;
        assert (1.0 - f) * weight == weight - f * weight;
      } else if weight == 0.0 {
        assert f * weight == 0.0;
      } else {
        assert f * weight == 1.0 * weight;
      }
    }
    f * weight
  }

  lemma FractionMonotone(a: nat, b: nat, total: nat, weight: real)
    requires 0 < total && a <= b <= total && weight >= 0.0
    ensures Fraction(a, total, weight) <= Fraction(b, total, weight)
  {
    DivideMonotone(a as real, b as real, total as real);
    ScaleMonotone(a as real / total as real, b as real / total as real, weight);
  }

  /** The score contribution of one skill list: the matched fraction times
      the weight, or nothing when the career lists no such skills. */
  function SkillPart(careerSkills: seq<string>, userSkills: seq<string>, weight: real): (r: real)
    requires weight >= 0.0
    ensures 0.0 <= r <= weight
  {
    if |careerSkills| == 0 then 0.0
    else Fraction(CountMatched(careerSkills, userSkills), |careerSkills|, weight)
  }

  function PreferredSkills(c: Career): seq<string> {
    c.preferredSkills.GetOr([])
  }

  /** `min(years / 5, 1.0)`: only capped from above. */
  function ExperienceScore(years: int): (r: real)
    ensures r <= 1.0
    ensures years >= 0 ==> r >= 0.0
    ensures r == 1.0 <==> years >= 5
    ensures years < 0 ==> r < 0.0
  {
    Min(years as real / FullExperienceYears, 1.0)
  }

  /** Some interest contains the category or is contained in it, both
      lower-cased. */
  predicate InterestMatches(p: Profile, c: Career) {
    exists i :: 0 <= i < |p.interests| &&
      (Contains(Lower(c.category), Lower(p.interests[i])) || Contains(Lower(p.interests[i]), Lower(c.category)))
  }

  /** The sum of the weights that apply to this pair: the normaliser. */
  function MaxScore(p: Profile, c: Career): (m: real)
    ensures 0.15 <= m <= 1.0
  {
    (if |c.requiredSkills| > 0 then RequiredWeight else 0.0)
    + (if |PreferredSkills(c)| > 0 then PreferredWeight else 0.0)
    + ExperienceWeight
    + (if |p.interests| > 0 then InterestWeight else 0.0)
  }

  function InterestPart(p: Profile, c: Career): real {
    if |p.interests| > 0 && InterestMatches(p, c) then InterestWeight else 0.0
  }

  /** The weighted, un-normalised score. */
  function RawScore(p: Profile, c: Career): (r: real)
    ensures r <= MaxScore(p, c)
    ensures p.experienceYears >= 0 ==> r >= 0.0
  {
    SkillPart(c.requiredSkills, p.skills, RequiredWeight)
    + SkillPart(PreferredSkills(c), p.skills, PreferredWeight)
    + ExperienceScore(p.experienceYears) * ExperienceWeight
    + InterestPart(p, c)
  }

  /** `calculate_match_score`. */
  function MatchScore(p: Profile, c: Career): (r: real)
    ensures r <= 1.0
    ensures p.experienceYears >= 0 ==> 0.0 <= r
  {
    var m := MaxScore(p, c);
    var raw := RawScore(p, c);
    assert raw / m <= 1.0 by { DivideBounds(raw, m); }
    assert p.experienceYears >= 0 ==> raw / m >= 0.0 by { DivideBounds(raw, m); }
    Min(if m > 0.0 then raw / m else 0.0, 1.0)
  }

  lemma DivideBounds(a: real, m: real)
    requires m > 0.0
    ensures a <= m ==> a / m <= 1.0
    ensures a >= 0.0 ==> a / m >= 0.0
    ensures a / m == 1.0 <==> a == m
  {
  }

  /** The normaliser depends only on the career and on whether the profile
      lists any interest; the skills play no part. */
  lemma MaxScoreIgnoresSkills(p: Profile, q: Profile, c: Career)
    requires (|p.interests| > 0) == (|q.interests| > 0)
    ensures MaxScore(p, c) == MaxScore(q, c)
  {
  }

  /** Adding skills to a profile never lowers its score for any career. */
  lemma MoreSkillsNeverLowerScore(p: Profile, more: seq<string>, c: Career)
    requires forall u :: u in p.skills ==> u in more
    ensures MatchScore(p, c) <= MatchScore(p.(skills := more), c)
  {
    var q := p.(skills := more);
    CountMatchedMonotone(c.requiredSkills, p.skills, more);
    CountMatchedMonotone(PreferredSkills(c), p.skills, more);
    SkillPartMonotone(c.requiredSkills, p.skills, more, RequiredWeight);
    SkillPartMonotone(PreferredSkills(c), p.skills, more, PreferredWeight);
    assert RawScore(p, c) <= RawScore(q, c);
    assert MaxScore(p, c) == MaxScore(q, c);
    DivideMonotone(RawScore(p, c), RawScore(q, c), MaxScore(p, c));
  }

  lemma SkillPartMonotone(careerSkills: seq<string>, userSkills: seq<string>, more: seq<string>, weight: real)
    requires weight >= 0.0
    requires CountMatched(careerSkills, userSkills) <= CountMatched(careerSkills, more)
    ensures SkillPart(careerSkills, userSkills, weight) <= SkillPart(careerSkills, more, weight)
  {
    if |careerSkills| > 0 {
      FractionMonotone(CountMatched(careerSkills, userSkills), CountMatched(careerSkills, more), |careerSkills|, weight);
    }
  }

  lemma ScaleMonotone(x: real, y: real, w: real)
    requires x <= y && w >= 0.0
    ensures x * w <= y * w
  {
  }

  lemma DivideMonotone(a: real, b: real, m: real)
    requires m > 0.0 && a <= b
    ensures a / m <= b / m
  {
  }

  /** The score is 1 exactly when every component is full: all required and
      all preferred skills matched, at least five years of experience, and an
      interest match whenever interests are given. */
  lemma PerfectScoreIff(p: Profile, c: Career)
    ensures MatchScore(p, c) == 1.0 <==>
      && CountMatched(c.requiredSkills, p.skills) == |c.requiredSkills|
      && CountMatched(PreferredSkills(c), p.skills) == |PreferredSkills(c)|
      && p.experienceYears >= 5
      && (|p.interests| > 0 ==> InterestMatches(p, c))
  {
    var m := MaxScore(p, c);
    var raw := RawScore(p, c);
    DivideBounds(raw, m);
  }

  /** Because the experience term is capped only from above, a negative
      number of years drags the score below zero. */
  lemma NegativeExperienceBelowZero(c: Career)
    ensures MatchScore(EmptyProfile.(experienceYears := -5), c) < 0.0
  {
    var p := EmptyProfile.(experienceYears := -5);
    assert CountMatched(c.requiredSkills, p.skills) == 0;
    assert CountMatched(PreferredSkills(c), p.skills) == 0;
    assert RawScore(p, c) == -0.15;
    DivideBounds(RawScore(p, c), MaxScore(p, c));
  }
}

=== FILE: model.dfy ===
/** The records exchanged between the recommendation service and the web
    client: catalog entries, user profiles, recommendations and roadmaps. */
module Model {
  import opened Wrappers

  datatype Salary = Salary(min: int, max: int, currency: string)

  /** One catalog entry. `preferredSkills` and `learningPath` are optional
      because the client reads them defensively (`|| []`, a truthiness test)
      and the server reads them with a default (`dict.get(key, [])`). */
  datatype Career = Career(
    id: string,
    title: string,
    category: string,
    description: string,
    requiredSkills: seq<string>,
    preferredSkills: Option<seq<string>>,
    salary: Salary,
    growthPotential: int,
    learningPath: Option<seq<string>>)

  /** The profile the wizard builds and the service scores. */
  datatype Profile = Profile(
    skills: seq<string>,
    interests: seq<string>,
    educationLevel: string,
    experienceYears: int,
    goals: string,
    currentRole: string,
    location: string)

  /** The wizard's initial profile: every list empty, zero years. */
  const EmptyProfile := Profile([], [], "", 0, "", "", "")

  /** One rule-based reason sentence, kept as data rather than formatted text. */
  datatype Reason =
    | SkillsAlign(skills: seq<string>)
    | ExperienceValued(years: int)
    | InterestMatch(category: string)
    | GrowthPotential(category: string)

  /** The `reasoning` text of a recommendation: the rule-based reasons, the
      opaque text of the language-model call, or the sentence that accompanies
      a catalog-order fallback recommendation. */
  datatype Reasoning =
    | RuleBased(reasons: seq<Reason>)
    | Generated(text: string)
    | Popular(category: string)

  datatype Recommendation = Recommendation(
    career: string,
    matchScore: real,
    reasoning: Reasoning,
    requiredSkills: seq<string>,
    learningPath: seq<string>,
    salary: Salary,
    growthPotential: int)

  /** The body of a recommendation response as the client receives it;
      `recommendations` is absent when the body lacks the field. */
  datatype RecommendationBody = RecommendationBody(
    recommendations: Option<seq<Recommendation>>,
    userProfileSummary: string)

  /** A learning roadmap, whether served by the roadmap endpoint or derived by
      the client from a catalog entry. */
  datatype RoadmapView = RoadmapView(
    career: string,
    roadmap: seq<string>,
    requiredSkills: seq<string>,
    preferredSkills: seq<string>,
    estimatedTime: string,
    difficulty: string)

  const DefaultEstimatedTime := "6-12 months"
  const DefaultDifficulty := "Intermediate to Advanced"

  /** An HTTP error raised by the service (`HTTPException`). */
  datatype HttpError = HttpError(status: int, detail: string)
}

=== FILE: reasoning.dfy ===
/** The service's rule-based reasoning: the list of reason sentences that
    explains a recommendation when no language-model text is available. */
module Reasoning {
  import opened Model
  import opened Text
  import opened Seqs
  import opened Matching

  /** The career's required skills that some profile skill matches, in
      catalog order; the same two-way substring test as the score. */
  function MatchingSkills(p: Profile, c: Career): (r: seq<string>)
    ensures IsSubsequence(r, c.requiredSkills)
    ensures forall i :: 0 <= i < |r| ==> Matched(r[i], p.skills)
    ensures forall i :: 0 <= i < |c.requiredSkills| && Matched(c.requiredSkills[i], p.skills) ==>
      c.requiredSkills[i] in r
  {
    Where(c.requiredSkills, (s: string) => Matched(s, p.skills))
  }

  /** The reasoning lists exactly as many matched skills as the score counts. */
  lemma MatchingSkillsAgreeWithScore(p: Profile, c: Career)
    ensures |MatchingSkills(p, c)| == CountMatched(c.requiredSkills, p.skills)
  {
    WhereCount(c.requiredSkills, p.skills);
  }

  lemma {:induction false} WhereCount(careerSkills: seq<string>, userSkills: seq<string>)
    ensures |Where(careerSkills, (s: string) => Matched(s, userSkills))| == CountMatched(careerSkills, userSkills)
  {
    if |careerSkills| > 0 {
      WhereCount(careerSkills[1..], userSkills);
    }
  }

  /** The reasoning's interest test: some lower-cased interest is contained
      in the lower-cased category. Only this one direction is checked. */
  predicate InterestInCategory(p: Profile, c: Career) {
    exists i :: 0 <= i < |p.interests| && Contains(Lower(c.category), Lower(p.interests[i]))
  }

  function Take<T>(s: seq<T>, n: nat): (r: seq<T>)
    ensures |r| == if |s| < n then |s| else n
    ensures r == s[..|r|]
  {
    if |s| < n then s else s[..n]
  }

  /** The position of each kind of reason in the joined text: skills, then
      experience, then interest; the growth sentence only ever stands alone. */
  function Rank(reason: Reason): nat {
    match reason
    case SkillsAlign(_) => 0
    case ExperienceValued(_) => 1
    case InterestMatch(_) => 2
    case GrowthPotential(_) => 3
  }

  /** `generate_rule_based_reasoning`, as its list of reasons. */
  function RuleBasedReasons(p: Profile, c: Career): (r: seq<Reason>)
    ensures 1 <= |r| <= 3
    ensures forall i :: 0 <= i < |r| ==>
      || r[i] == SkillsAlign(Take(MatchingSkills(p, c), 2))
      || r[i] == ExperienceValued(p.experienceYears)
      || r[i] == InterestMatch(c.category)
      || r[i] == GrowthPotential(c.category)
    ensures forall i, j :: 0 <= i < j < |r| ==> Rank(r[i]) < Rank(r[j])
    ensures SkillsAlign(Take(MatchingSkills(p, c), 2)) in r <==> |MatchingSkills(p, c)| > 0
    ensures ExperienceValued(p.experienceYears) in r <==> p.experienceYears > 0
    ensures InterestMatch(c.category) in r <==> InterestInCategory(p, c)
    ensures GrowthPotential(c.category) in r <==>
      |MatchingSkills(p, c)| == 0 && p.experienceYears <= 0 && !InterestInCategory(p, c)
  {
    var skills := MatchingSkills(p, c);
    var reasons :=
      (if |skills| > 0 then [SkillsAlign(Take(skills, 2))] else [])
      + (if p.experienceYears > 0 then [ExperienceValued(p.experienceYears)] else [])
      + (if |p.interests| > 0 && InterestInCategory(p, c) then [InterestMatch(c.category)] else []);
    if |reasons| == 0 then [GrowthPotential(c.category)] else reasons
  }

  /** The default growth sentence appears exactly when the profile earns no
      skill match, no positive experience and no contained interest; in the
      score's terms: no required skill matched. */
  lemma GrowthReasonIff(p: Profile, c: Career)
    ensures GrowthPotential(c.category) in RuleBasedReasons(p, c) <==>
      CountMatched(c.requiredSkills, p.skills) == 0 && p.experienceYears <= 0 && !InterestInCategory(p, c)
  {
    MatchingSkillsAgreeWithScore(p, c);
  }

  /** An interest the reasoning credits is also credited by the score. */
  lemma InterestReasonImpliesScored(p: Profile, c: Career)
    requires InterestMatch(c.category) in RuleBasedReasons(p, c)
    ensures InterestMatches(p, c)
  {
  }

  /** The converse fails: an interest that contains the category earns the
      interest weight in the score but no interest sentence in the reasoning. */
  lemma InterestDirectionsDiffer(c: Career)
    ensures var p := EmptyProfile.(interests := [c.category + " roles"]);
      InterestMatches(p, c) && InterestMatch(c.category) !in RuleBasedReasons(p, c)
  {
    var p := EmptyProfile.(interests := [c.category + " roles"]);
    var cat := Lower(c.category);
    LowerConcat(c.category, " roles");
    ContainsPrefix(cat, Lower(" roles"));
    assert Contains(Lower(p.interests[0]), cat);
    NotContainsLonger(cat, Lower(p.interests[0]));
    assert !InterestInCategory(p, c);
  }
}

=== FILE: recommend.dfy ===
/** The service's recommendation list: every catalog entry scoring above 0.2,
    stably sorted by descending score, cut to the top three; when nothing
    qualifies, the first three catalog entries with score 0.5. */
module Recommend {
  import opened Wrappers
  import opened Model
  import opened Matching
  import opened Reasoning

  const Threshold: real := 0.2
  const TopCount: nat := 3
  const FallbackScore: real := 0.5

  /** A qualifying catalog position and its score. */
  datatype Scored = Scored(idx: nat, score: real)

  /** The match score of every catalog entry, in catalog order. */
  function Scores(p: Profile, catalog: seq<Career>): (s: seq<real>)
    ensures |s| == |catalog|
    ensures forall j :: 0 <= j < |s| ==> s[j] == MatchScore(p, catalog[j])
  {
    seq(|catalog|, j requires 0 <= j < |catalog| => MatchScore(p, catalog[j]))
  }

  /** The qualifying entries at positions `from` and later, in catalog order. */
  function Candidates(scores: seq<real>, from: nat): (r: seq<Scored>)
    requires from <= |scores|
    ensures forall k :: 0 <= k < |r| ==>
      from <= r[k].idx < |scores| && r[k].score == scores[r[k].idx] && r[k].score > Threshold
    ensures forall k, l :: 0 <= k < l < |r| ==> r[k].idx < r[l].idx
    ensures forall j :: from <= j < |scores| && scores[j] > Threshold ==>
      Scored(j, scores[j]) in r
    decreases |scores| - from
  {
    if from == |scores| then []
    else
      var rest := Candidates(scores, from + 1);
      if scores[from] > Threshold then [Scored(from, scores[from])] + rest else rest
  }

  /** Python's stable sort with `reverse=True` on the score: higher scores
      first, equal scores in catalog order. */
  predicate Before(a: Scored, b: Scored) {
    a.score > b.score || (a.score == b.score && a.idx < b.idx)
  }

  predicate Ranked(s: seq<Scored>) {
    forall i, j :: 0 <= i < j < |s| ==> Before(s[i], s[j])
  }

  predicate DistinctPositions(s: seq<Scored>) {
    forall i, j :: 0 <= i < j < |s| ==> s[i].idx != s[j].idx
  }

  function Insert(x: Scored, s: seq<Scored>): (r: seq<Scored>)
    requires Ranked(s)
    requires forall y :: y in s ==> y.idx != x.idx
    ensures Ranked(r)
    ensures multiset(r) == multiset(s) + multiset{x}
  {
    if |s| == 0 then [x]
    else if Before(x, s[0]) then [x] + s
    else
      var rest := Insert(x, s[1..]);
      assert s == [s[0]] + s[1..];
      forall i | 0 <= i < |rest| ensures Before(s[0], rest[i]) {
        assert rest[i] in multiset(rest);
        if rest[i] != x {
          assert rest[i] in multiset(s[1..]);
          var m :| 0 <= m < |s[1..]| && s[1..][m] == rest[i];
          assert s[m + 1] == rest[i];
        }
      }
      [s[0]] + rest
  }

  function SortByScore(s: seq<Scored>): (r: seq<Scored>)
    requires DistinctPositions(s)
    ensures Ranked(r)
    ensures multiset(r) == multiset(s)
  {
    if |s| == 0 then []
    else
      var rest := SortByScore(s[1..]);
      assert forall y :: y in rest ==> y.idx != s[0].idx by {
        forall y | y in rest ensures y.idx != s[0].idx {
          assert y in multiset(s[1..]);
        }
      }
      assert s == [s[0]] + s[1..];
      Insert(s[0], rest)
  }

  /** An entry is qualifying at position `j` and has its own score. */
  predicate Qualifies(scores: seq<real>, x: Scored) {
    x.idx < |scores| && x.score == scores[x.idx] && x.score > Threshold
  }

  predicate Chosen(r: seq<Scored>, j: nat) {
    exists k :: 0 <= k < |r| && r[k].idx == j
  }

  /** The positions and scores of the recommended entries, best first. */
  function Selected(scores: seq<real>): (r: seq<Scored>)
    ensures |r| <= TopCount
    ensures Ranked(r) && DistinctPositions(r)
    ensures forall k :: 0 <= k < |r| ==> Qualifies(scores, r[k])
    ensures |r| == 0 <==> forall j :: 0 <= j < |scores| ==> scores[j] <= Threshold
    ensures forall j, k :: 0 <= j < |scores| && scores[j] > Threshold && !Chosen(r, j) && 0 <= k < |r| ==>
      |r| == TopCount && Before(r[k], Scored(j, scores[j]))
  {
    var ranked := SortByScore(Candidates(scores, 0));
    RankingHoldsCandidates(scores, ranked);
    var r := if |ranked| < TopCount then ranked else ranked[..TopCount];
    TopOfRanking(scores, ranked, r);
    r
  }

  /** The sorted list holds exactly the qualifying entries. */
  lemma RankingHoldsCandidates(scores: seq<real>, ranked: seq<Scored>)
    requires multiset(ranked) == multiset(Candidates(scores, 0))
    ensures forall k :: 0 <= k < |ranked| ==> Qualifies(scores, ranked[k])
    ensures forall j :: 0 <= j < |scores| && scores[j] > Threshold ==> Scored(j, scores[j]) in ranked
  {
    var candidates := Candidates(scores, 0);
    forall k | 0 <= k < |ranked| ensures Qualifies(scores, ranked[k]) {
      assert ranked[k] in multiset(candidates);
    }
    forall j | 0 <= j < |scores| && scores[j] > Threshold ensures Scored(j, scores[j]) in ranked {
      assert Scored(j, scores[j]) in multiset(candidates);
    }
  }

  lemma TopOfRanking(scores: seq<real>, ranked: seq<Scored>, r: seq<Scored>)
    requires Ranked(ranked)
    requires forall k :: 0 <= k < |ranked| ==> Qualifies(scores, ranked[k])
    requires forall j :: 0 <= j < |scores| && scores[j] > Threshold ==> Scored(j, scores[j]) in ranked
    requires r == if |ranked| < TopCount then ranked else ranked[..TopCount]
    ensures Ranked(r) && DistinctPositions(r)
    ensures forall k :: 0 <= k < |r| ==> Qualifies(scores, r[k])
    ensures |r| == 0 <==> forall j :: 0 <= j < |scores| ==> scores[j] <= Threshold
    ensures forall j, k :: 0 <= j < |scores| && scores[j] > Threshold && !Chosen(r, j) && 0 <= k < |r| ==>
      |r| == TopCount && Before(r[k], Scored(j, scores[j]))
  {
    forall j, k | 0 <= j < |scores| && scores[j] > Threshold && !Chosen(r, j) && 0 <= k < |r|
      ensures |r| == TopCount && Before(r[k], Scored(j, scores[j]))
    {
      var m :| 0 <= m < |ranked| && ranked[m] == Scored(j, scores[j]);
      assert m >= |r|;
    }
    if |r| > 0 {
      assert Qualifies(scores, r[0]);
    }
  }

  /** One recommendation for a qualifying entry. `generated` is the text of
      the language-model call, absent when no key is configured or the call
      failed, in which case the rule-based reasons are used. */
  function QualifiedPick(p: Profile, c: Career, score: real, generated: Option<string>): Recommendation {
    Recommendation(
      c.title, score,
      if generated.Some? then Generated(generated.value) else RuleBased(RuleBasedReasons(p, c)),
      c.requiredSkills, c.learningPath.GetOr([]), c.salary, c.growthPotential)
  }

  /** The recommendation offered for an entry when nothing qualifies. */
  function FallbackPick(c: Career): Recommendation {
    Recommendation(
      c.title, FallbackScore, Model.Popular(c.category),
      c.requiredSkills, c.learningPath.GetOr([]), c.salary, c.growthPotential)
  }

  /** The recommendations for the selected entries, in the selected order. */
  function QualifiedPicks(p: Profile, catalog: seq<Career>, s: seq<Scored>, generated: Career -> Option<string>): (r: seq<Recommendation>)
    requires forall k :: 0 <= k < |s| ==> s[k].idx < |catalog|
    ensures |r| == |s|
    ensures forall k :: 0 <= k < |s| ==>
      var c := catalog[s[k].idx];
      && r[k].matchScore == s[k].score
      && r[k].career == c.title
      && r[k].requiredSkills == c.requiredSkills
      && r[k].learningPath == c.learningPath.GetOr([])
      && r[k].salary == c.salary
      && r[k].growthPotential == c.growthPotential
      && r[k].reasoning ==
        if generated(c).Some? then Generated(generated(c).value) else RuleBased(RuleBasedReasons(p, c))
  {
    seq(|s|, k requires 0 <= k < |s| => QualifiedPick(p, catalog[s[k].idx], s[k].score, generated(catalog[s[k].idx])))
  }

  /** The first three catalog entries (or all, when fewer) as fallback picks. */
  function FallbackPicks(catalog: seq<Career>): (r: seq<Recommendation>)
    ensures |r| == if |catalog| < TopCount then |catalog| else TopCount
    ensures forall k :: 0 <= k < |r| ==> r[k] == FallbackPick(catalog[k])
  {
    var n := if |catalog| < TopCount then |catalog| else TopCount;
    seq(n, k requires 0 <= k < n => FallbackPick(catalog[k]))
  }

  /** `get_recommendations` over a catalog. */
  function GetRecommendations(p: Profile, catalog: seq<Career>, generated: Career -> Option<string>): (r: seq<Recommendation>)
    ensures |r| <= TopCount
    ensures forall i, j :: 0 <= i < j < |r| ==> r[i].matchScore >= r[j].matchScore
    ensures (forall j :: 0 <= j < |catalog| ==> MatchScore(p, catalog[j]) <= Threshold) ==>
      |r| == (if |catalog| < TopCount then |catalog| else TopCount)
      && forall k :: 0 <= k < |r| ==> r[k] == FallbackPick(catalog[k])
  {
    var s := Selected(Scores(p, catalog));
    if |s| > 0 then
      QualifiedBranch(p, catalog, generated);
      QualifiedPicks(p, catalog, s, generated)
    else
      FallbackPicks(catalog)
  }

  /** When some entry is selected, its picks are defined, ordered by score,
      and some entry scores above the threshold. */
  lemma QualifiedBranch(p: Profile, catalog: seq<Career>, generated: Career -> Option<string>)
    requires |Selected(Scores(p, catalog))| > 0
    ensures var s := Selected(Scores(p, catalog));
      && (forall k :: 0 <= k < |s| ==> s[k].idx < |catalog|)
      && !(forall j :: 0 <= j < |catalog| ==> MatchScore(p, catalog[j]) <= Threshold)
      && var r := QualifiedPicks(p, catalog, s, generated);
        forall i, j :: 0 <= i < j < |r| ==> r[i].matchScore >= r[j].matchScore
  {
    var scores := Scores(p, catalog);
    var s := Selected(scores);
    forall k | 0 <= k < |s| ensures s[k].idx < |catalog| {
      assert Qualifies(scores, s[k]);
    }
    assert Qualifies(scores, s[0]);
    var r := QualifiedPicks(p, catalog, s, generated);
    forall i, j | 0 <= i < j < |r| ensures r[i].matchScore >= r[j].matchScore {
      assert Before(s[i], s[j]);
    }
  }

  /** When some entry scores above the threshold, each recommendation comes
      from its own qualifying catalog entry and copies that entry's title,
      required skills, learning path, salary range and growth potential. */
  lemma QualifiedRecommendationsCopyCatalog(p: Profile, catalog: seq<Career>, generated: Career -> Option<string>)
    requires exists j :: 0 <= j < |catalog| && MatchScore(p, catalog[j]) > Threshold
    ensures var r := GetRecommendations(p, catalog, generated);
      var s := Selected(Scores(p, catalog));
      && |r| == |s| > 0
      && forall k :: 0 <= k < |r| ==>
        && s[k].idx < |catalog|
        && var c := catalog[s[k].idx];
        && r[k].matchScore == MatchScore(p, c) > Threshold
        && r[k].career == c.title
        && r[k].requiredSkills == c.requiredSkills
        && r[k].learningPath == c.learningPath.GetOr([])
        && r[k].salary == c.salary
        && r[k].growthPotential == c.growthPotential
        && r[k].reasoning ==
          if generated(c).Some? then Generated(generated(c).value) else RuleBased(RuleBasedReasons(p, c))
  {
    SelectedNonEmpty(p, catalog);
    SelectedQualify(p, catalog);
    var s := Selected(Scores(p, catalog));
    PicksCopyCatalog(p, catalog, s, generated);
  }

  lemma SelectedNonEmpty(p: Profile, catalog: seq<Career>)
    requires exists j :: 0 <= j < |catalog| && MatchScore(p, catalog[j]) > Threshold
    ensures |Selected(Scores(p, catalog))| > 0
  {
    var scores := Scores(p, catalog);
    var j :| 0 <= j < |catalog| && MatchScore(p, catalog[j]) > Threshold;
    assert scores[j] > Threshold;
  }

  lemma SelectedQualify(p: Profile, catalog: seq<Career>)
    ensures var s := Selected(Scores(p, catalog));
      forall k :: 0 <= k < |s| ==>
        s[k].idx < |catalog| && s[k].score == MatchScore(p, catalog[s[k].idx]) > Threshold
  {
    var scores := Scores(p, catalog);
    var s := Selected(scores);
    forall k | 0 <= k < |s|
      ensures s[k].idx < |catalog| && s[k].score == MatchScore(p, catalog[s[k].idx]) > Threshold
    {
      assert Qualifies(scores, s[k]);
    }
  }

  /** Picks for entries that qualify copy their entries' fields and scores. */
  lemma PicksCopyCatalog(p: Profile, catalog: seq<Career>, s: seq<Scored>, generated: Career -> Option<string>)
    requires forall k :: 0 <= k < |s| ==>
      s[k].idx < |catalog| && s[k].score == MatchScore(p, catalog[s[k].idx]) > Threshold
    ensures var r := QualifiedPicks(p, catalog, s, generated);
      && |r| == |s|
      && forall k :: 0 <= k < |r| ==>
        && s[k].idx < |catalog|
        && var c := catalog[s[k].idx];
        && r[k].matchScore == MatchScore(p, c) > Threshold
        && r[k].career == c.title
        && r[k].requiredSkills == c.requiredSkills
        && r[k].learningPath == c.learningPath.GetOr([])
        && r[k].salary == c.salary
        && r[k].growthPotential == c.growthPotential
        && r[k].reasoning ==
          if generated(c).Some? then Generated(generated(c).value) else RuleBased(RuleBasedReasons(p, c))
  {
  }
}

=== FILE: results.dfy ===
/** The results page: one card per recommendation received through the
    wizard's navigation state, with its rank, rounded match percentage,
    learning-path preview and a link to the career's detail page. */
module Results {
  import opened Wrappers
  import opened Model
  import opened Text
  import Catalog
  import Lookup
  import Recommend

  /** The navigation state the wizard passes; every part may be missing when
      the page is opened directly. */
  datatype NavPayload = NavPayload(recommendations: Option<RecommendationBody>, profile: Option<Profile>)

  datatype Card = Card(
    rank: nat,
    title: string,
    percent: int,
    reasoning: Reasoning,
    skillCount: nat,
    preview: seq<string>,
    link: string)

  /** The page shows either the way back to the wizard or the cards. */
  datatype Page = Recovery | Cards(summary: string, cards: seq<Card>)

  /** JavaScript's `Math.round` on an exact value: halves round up. */
  function Round(x: real): (r: int)
    ensures r as real <= x + 0.5 < r as real + 1.0
  {
    (x + 0.5).Floor
  }

  /** The match badge: the score as a rounded percentage. */
  function Percent(score: real): (r: int)
    ensures 0.0 <= score <= 1.0 ==> 0 <= r <= 100
    ensures (r as real - 0.5) / 100.0 <= score < (r as real + 0.5) / 100.0
  {
    Round(score * 100.0)
  }

  lemma PercentMonotone(a: real, b: real)
    requires a <= b
    ensures Percent(a) <= Percent(b)
  {
    var pa, pb := Percent(a), Percent(b);
    assert pa as real <= a * 100.0 + 0.5 <= b * 100.0 + 0.5 < pb as real + 1.0;
  }

  /** The fallback score shows as 50%. */
  lemma FallbackShowsHalf()
    ensures Percent(Recommend.FallbackScore) == 50
  {
  }

  const PreviewLength: nat := 3

  function Preview(steps: seq<string>): (r: seq<string>)
    ensures |r| == if |steps| < PreviewLength then |steps| else PreviewLength
    ensures r == steps[..|r|]
  {
    if |steps| < PreviewLength then steps else steps[..PreviewLength]
  }

  /** The detail-page path segment built from a title: lower-cased, every
      run of white space replaced by one hyphen. */
  function Slug(title: string): (r: string)
    ensures NoSpace(r)
    ensures NoSpace(title) ==> r == Lower(title)
  {
    assert NoSpace(title) ==> ReplaceSpaceRuns(Lower(title)) == Lower(title) by {
      if NoSpace(title) {
        LowerKeepsNoSpace(title);
        ReplaceSpaceRunsNoSpace(Lower(title));
      }
    }
    ReplaceSpaceRuns(Lower(title))
  }

  /** The "View Full Roadmap" link as the page builds it: the detail route
      followed by a single white-space-free segment made from the title. */
  function SlugLink(title: string): (r: string)
    ensures |r| >= |"/careers/"| && r[..|"/careers/"|] == "/careers/"
    ensures NoSpace(r)
    ensures NoSpace(title) ==> r == "/careers/" + Lower(title)
  {
    var prefix, slug := "/careers/", Slug(title);
    assert NoSpace(prefix + slug) by {
      forall i | 0 <= i < |prefix + slug|
        ensures !IsSpace((prefix + slug)[i])
      {
        if i >= |prefix| {
          assert (prefix + slug)[i] == slug[i - |prefix|];
        }
      }
    }
    prefix + slug
  }

  function CardFor(rec: Recommendation, index: nat): (c: Card)
    ensures c.rank == index + 1 && c.title == rec.career
    ensures c.percent == Percent(rec.matchScore)
    ensures c.preview == Preview(rec.learningPath) && |c.preview| <= PreviewLength
  {
    Card(index + 1, rec.career, Percent(rec.matchScore), rec.reasoning,
      |rec.requiredSkills|, Preview(rec.learningPath), SlugLink(rec.career))
  }

  /** The page for a navigation state: the recovery view unless both the
      response body and its recommendation list are present (an empty list
      is present), otherwise one card per recommendation in order. */
  function Render(state: Option<NavPayload>): (p: Page)
    ensures p.Recovery? <==>
      || state.None?
      || state.value.recommendations.None?
      || state.value.recommendations.value.recommendations.None?
    ensures p.Cards? ==>
      var recs := state.value.recommendations.value.recommendations.value;
      && p.summary == state.value.recommendations.value.userProfileSummary
      && |p.cards| == |recs|
      && forall i :: 0 <= i < |recs| ==> p.cards[i] == CardFor(recs[i], i)
  {
    if state.None? || state.value.recommendations.None? then Recovery
    else
      var body := state.value.recommendations.value;
      match body.recommendations
      case None => Recovery
      case Some(recs) =>
        Cards(body.userProfileSummary, seq(|recs|, i requires 0 <= i < |recs| => CardFor(recs[i], i)))
  }

  /** The cards for the service's answer to a submitted profile: at most
      three, ranked 1, 2, 3, with badges that never increase down the page. */
  lemma ServiceAnswerRenders(p: Profile, catalog: seq<Career>, generated: Career -> Option<string>, summary: string)
    ensures var recs := Recommend.GetRecommendations(p, catalog, generated);
      var page := Render(Some(NavPayload(Some(RecommendationBody(Some(recs), summary)), Some(p))));
      && page.Cards?
      && |page.cards| <= Recommend.TopCount
      && (forall i :: 0 <= i < |page.cards| ==> page.cards[i].rank == i + 1)
      && (forall i, j :: 0 <= i < j < |page.cards| ==> page.cards[i].percent >= page.cards[j].percent)
  {
    var recs := Recommend.GetRecommendations(p, catalog, generated);
    var page := Render(Some(NavPayload(Some(RecommendationBody(Some(recs), summary)), Some(p))));
    forall i, j | 0 <= i < j < |page.cards|
      ensures page.cards[i].percent >= page.cards[j].percent
    {
      PercentMonotone(recs[j].matchScore, recs[i].matchScore);
    }
  }

  /** A two-word title without white space in its words becomes the two
      lower-cased words joined by a hyphen. */
  lemma SlugTwoWords(a: string, b: string)
    requires NoSpace(a) && NoSpace(b)
    ensures Slug(a + " " + b) == Lower(a) + "-" + Lower(b)
  {
    LowerTwoWords(a, b);
    LowerKeepsNoSpace(a);
    LowerKeepsNoSpace(b);
    ReplaceTwoWords(Lower(a), Lower(b));
  }

  /** An id outside the catalog's id list finds nothing. */
  lemma UnlistedIdNotFound(id: string)
    requires id !in Catalog.CareerIds
    ensures Lookup.FindById(Catalog.CareerDatabase, id).None?
  {
    Catalog.CareerIdsInOrder();
  }

  lemma FullStackSlug()
    ensures Slug(Catalog.FullstackDeveloper.title) == "full-stack-developer"
  {
    FullStackSlugTitle();
    FullStackSlugWords();
    SlugTwoWords("Full-Stack", "Developer");
    FullStackSlugLower();
  }

  lemma FullStackSlugTitle()
    ensures Catalog.FullstackDeveloper.title == "Full-Stack" + " " + "Developer"
  {
  }

  lemma FullStackSlugWords()
    ensures NoSpace("Full-Stack") && NoSpace("Developer")
  {
  }

  lemma FullStackSlugLower()
    ensures Lower("Full-Stack") + "-" + Lower("Developer") == "full-stack-developer"
  {
    assert Lower("Full-Stack") == "full-stack";
    assert Lower("Developer") == "developer";
  }

  /** The slug of "Full-Stack Developer" keeps the title's hyphen, so it is
      not the entry's id and names no catalog entry. */
  lemma FullStackSlugMissesCatalog()
    ensures Slug(Catalog.FullstackDeveloper.title) != Catalog.FullstackDeveloper.id
    ensures Lookup.FindById(Catalog.CareerDatabase, Slug(Catalog.FullstackDeveloper.title)).None?
  {
    FullStackSlug();
    assert "full-stack-developer" !in Catalog.CareerIds;
    UnlistedIdNotFound("full-stack-developer");
  }

  lemma UiUxSlug()
    ensures Slug(Catalog.UiUxDesigner.title) == "ui/ux-designer"
  {
    UiUxSlugTitle();
    UiUxSlugWords();
    SlugTwoWords("UI/UX", "Designer");
    UiUxSlugLower();
  }

  lemma UiUxSlugTitle()
    ensures Catalog.UiUxDesigner.title == "UI/UX" + " " + "Designer"
  {
  }

  lemma UiUxSlugWords()
    ensures NoSpace("UI/UX") && NoSpace("Designer")
  {
  }

  lemma UiUxSlugLower()
    ensures Lower("UI/UX") + "-" + Lower("Designer") == "ui/ux-designer"
  {
    assert Lower("UI/UX") == "ui/ux";
    assert Lower("Designer") == "designer";
  }

  /** The slug of "UI/UX Designer" keeps the slash, so it is not the entry's
      id and names no catalog entry. */
  lemma UiUxSlugMissesCatalog()
    ensures Slug(Catalog.UiUxDesigner.title) != Catalog.UiUxDesigner.id
    ensures Lookup.FindById(Catalog.CareerDatabase, Slug(Catalog.UiUxDesigner.title)).None?
  {
    UiUxSlug();
    assert "ui/ux-designer" !in Catalog.CareerIds;
    UnlistedIdNotFound("ui/ux-designer");
  }

  /** For an ordinary title the slug is the id. */
  lemma FrontendSlugIsId()
    ensures Slug(Catalog.FrontendDeveloper.title) == Catalog.FrontendDeveloper.id
  {
    FrontendSlug();
  }

  lemma FrontendSlug()
    ensures Slug(Catalog.FrontendDeveloper.title) == "frontend-developer"
  {
    FrontendSlugTitle();
    FrontendSlugWords();
    SlugTwoWords("Frontend", "Developer");
    FrontendSlugLower();
  }

  lemma FrontendSlugTitle()
    ensures Catalog.FrontendDeveloper.title == "Frontend" + " " + "Developer"
  {
  }

  lemma FrontendSlugWords()
    ensures NoSpace("Frontend") && NoSpace("Developer")
  {
  }

  lemma FrontendSlugLower()
    ensures Lower("Frontend") + "-" + Lower("Developer") == "frontend-developer"
  {
    assert Lower("Frontend") == "frontend";
    assert Lower("Developer") == "developer";
  }

  /** The link to a recommended career's detail page by its catalog id: the
      id of the first catalog entry with the recommended title, or the slug
      when no entry has that title. */
  function CatalogLink(catalog: seq<Career>, title: string): (r: string)
    ensures (exists k :: 0 <= k < |catalog| && catalog[k].title == title) ==>
      exists k :: FirstWithTitle(catalog, title, k) && r == "/careers/" + catalog[k].id
    ensures (forall k :: 0 <= k < |catalog| ==> catalog[k].title != title) ==> r == SlugLink(title)
  {
    if |catalog| == 0 then SlugLink(title)
    else if catalog[0].title == title then
      assert FirstWithTitle(catalog, title, 0);
      "/careers/" + catalog[0].id
    else
      var r := CatalogLink(catalog[1..], title);
      assert (exists k :: 0 <= k < |catalog| && catalog[k].title == title) ==>
        exists k :: FirstWithTitle(catalog, title, k) && r == "/careers/" + catalog[k].id by {
        if exists k :: 0 <= k < |catalog| && catalog[k].title == title {
          var k :| 0 <= k < |catalog| && catalog[k].title == title;
          assert catalog[1..][k - 1].title == title;
          var m :| FirstWithTitle(catalog[1..], title, m) && r == "/careers/" + catalog[1..][m].id;
          assert FirstWithTitle(catalog, title, m + 1);
        }
      }
      assert (forall k :: 0 <= k < |catalog| ==> catalog[k].title != title) ==> r == SlugLink(title) by {
        if forall k :: 0 <= k < |catalog| ==> catalog[k].title != title {
          assert forall k :: 0 <= k < |catalog[1..]| ==> catalog[1..][k].title != title by {
            forall k | 0 <= k < |catalog[1..]| ensures catalog[1..][k].title != title {
              assert catalog[1..][k] == catalog[k + 1];
            }
          }
        }
      }
      r
  }

  /** Position `k` holds the first entry with the given title. */
  predicate FirstWithTitle(catalog: seq<Career>, title: string, k: int) {
    0 <= k < |catalog| && catalog[k].title == title && forall j :: 0 <= j < k ==> catalog[j].title != title
  }

  /** Every card built for a service recommendation, linked by catalog id,
      opens the detail page of exactly that career. */
  lemma CatalogLinkOpensCareer(k: nat)
    requires k < |Catalog.CareerDatabase|
    ensures var c := Catalog.CareerDatabase[k];
      exists id ::
        && CatalogLink(Catalog.CareerDatabase, c.title) == "/careers/" + id
        && Lookup.FindById(Catalog.CareerDatabase, id) == Some(c)
  {
    var db := Catalog.CareerDatabase;
    Catalog.CatalogTitlesUnique();
    Catalog.CatalogIdsUnique();
    CatalogLinkOwnTitle(db, k);
    Lookup.FindOwnId(db, k);
  }

  /** In a catalog without repeated titles, an entry's title links to its
      own id. */
  lemma CatalogLinkOwnTitle(catalog: seq<Career>, k: nat)
    requires k < |catalog|
    requires forall i, j :: 0 <= i < j < |catalog| ==> catalog[i].title != catalog[j].title
    ensures CatalogLink(catalog, catalog[k].title) == "/careers/" + catalog[k].id
  {
    var title := catalog[k].title;
    assert 0 <= k < |catalog| && catalog[k].title == title;
    var m :| FirstWithTitle(catalog, title, m) && CatalogLink(catalog, title) == "/careers/" + catalog[m].id;
    FirstTitleIsOwn(catalog, k, m);
  }

  lemma FirstTitleIsOwn(catalog: seq<Career>, k: nat, m: int)
    requires k < |catalog|
    requires forall i, j :: 0 <= i < j < |catalog| ==> catalog[i].title != catalog[j].title
    requires FirstWithTitle(catalog, catalog[k].title, m)
    ensures m == k
  {
  }
}

=== FILE: seqs.dfy ===
/** Order-preserving filtering and the facts about it that the client and the
    server rely on: a filtered list is a subsequence of its source, and a
    subsequence of a duplicate-free list is duplicate-free. */
module Seqs {

  /** `a` is obtained from `b` by deleting zero or more elements. */
  predicate IsSubsequence<T(==)>(a: seq<T>, b: seq<T>)
    decreases |b|
  {
    || |a| == 0
    || (&& |b| > 0
        && ((a[0] == b[0] && IsSubsequence(a[1..], b[1..])) || IsSubsequence(a, b[1..])))
  }

  /** Every element of a subsequence occurs in the original. */
  lemma {:induction false} SubsequenceMembers<T>(a: seq<T>, b: seq<T>)
    requires IsSubsequence(a, b)
    ensures forall x :: x in a ==> x in b
    decreases |b|
  {
    if |a| > 0 {
      if a[0] == b[0] && IsSubsequence(a[1..], b[1..]) {
        SubsequenceMembers(a[1..], b[1..]);
        assert forall x :: x in a ==> x == a[0] || x in a[1..];
      } else {
        SubsequenceMembers(a, b[1..]);
      }
    }
  }

  /** A subsequence of the tail is a subsequence of the whole. */
  lemma SubsequenceWeaken<T>(a: seq<T>, b: seq<T>)
    requires |b| > 0 && IsSubsequence(a, b[1..])
    ensures IsSubsequence(a, b)
  {
  }

  lemma {:induction false} SubsequenceTransitive<T>(a: seq<T>, b: seq<T>, c: seq<T>)
    requires IsSubsequence(a, b) && IsSubsequence(b, c)
    ensures IsSubsequence(a, c)
    decreases |c|
  {
    if |a| == 0 {
    } else if b[0] == c[0] && IsSubsequence(b[1..], c[1..]) {
      if a[0] == b[0] && IsSubsequence(a[1..], b[1..]) {
        SubsequenceTransitive(a[1..], b[1..], c[1..]);
      } else {
        SubsequenceTransitive(a, b[1..], c[1..]);
      }
    } else {
      SubsequenceTransitive(a, b, c[1..]);
    }
  }

  lemma {:induction false} SubsequenceReflexive<T>(a: seq<T>)
    ensures IsSubsequence(a, a)
    decreases |a|
  {
    if |a| > 0 {
      SubsequenceReflexive(a[1..]);
    }
  }

  /** The elements of `s` that satisfy `keep`, in their original order
      (Python's list comprehension with an `if`, JavaScript's `Array.filter`). */
  function Where<T>(s: seq<T>, keep: T -> bool): (r: seq<T>)
    ensures IsSubsequence(r, s)
    ensures forall i :: 0 <= i < |r| ==> keep(r[i])
    ensures forall i :: 0 <= i < |s| && keep(s[i]) ==> s[i] in r
    ensures |r| <= |s|
  {
    if |s| == 0 then []
    else if keep(s[0]) then [s[0]] + Where(s[1..], keep)
    else Where(s[1..], keep)
  }

  /** A filter that keeps everything is the identity. */
  lemma {:induction false} WhereAll<T>(s: seq<T>, keep: T -> bool)
    requires forall i :: 0 <= i < |s| ==> keep(s[i])
    ensures Where(s, keep) == s
  {
    if |s| > 0 {
      WhereAll(s[1..], keep);
    }
  }

  /** Membership in a filtered list, in both directions. */
  lemma WhereMember<T>(s: seq<T>, keep: T -> bool, x: T)
    ensures x in Where(s, keep) <==> x in s && keep(x)
  {
    var r := Where(s, keep);
    if x in r {
      SubsequenceMembers(r, s);
    }
  }

  /** A weaker filter keeps a superset, in the same order. */
  lemma {:induction false} WhereImplied<T>(s: seq<T>, narrow: T -> bool, wide: T -> bool)
    requires forall x :: narrow(x) ==> wide(x)
    ensures IsSubsequence(Where(s, narrow), Where(s, wide))
    decreases |s|
  {
    if |s| > 0 {
      WhereImplied(s[1..], narrow, wide);
      if wide(s[0]) && !narrow(s[0]) {
        SubsequenceWeaken(Where(s, narrow), Where(s, wide));
      }
    }
  }

  predicate NoDuplicates<T(==)>(s: seq<T>) {
    forall i, j :: 0 <= i < j < |s| ==> s[i] != s[j]
  }

  /** Deleting elements cannot create a duplicate. */
  lemma {:induction false} SubsequenceNoDuplicates<T>(a: seq<T>, b: seq<T>)
    requires IsSubsequence(a, b) && NoDuplicates(b)
    ensures NoDuplicates(a)
    decreases |b|
  {
    if |a| > 0 {
      if a[0] == b[0] && IsSubsequence(a[1..], b[1..]) {
        SubsequenceNoDuplicates(a[1..], b[1..]);
        SubsequenceMembers(a[1..], b[1..]);
        assert b[0] !in b[1..];
        forall i, j | 0 <= i < j < |a|
          ensures a[i] != a[j]
        {
          if i == 0 {
            assert a[j] == a[1..][j - 1];
          } else {
            assert a[i] == a[1..][i - 1] && a[j] == a[1..][j - 1];
          }
        }
      } else {
        SubsequenceNoDuplicates(a, b[1..]);
      }
    }
  }

  /** Appending an element that is not yet present keeps a list duplicate-free. */
  lemma AppendNoDuplicates<T>(s: seq<T>, x: T)
    requires NoDuplicates(s) && x !in s
    ensures NoDuplicates(s + [x])
  {
  }
}

=== FILE: text.dfy ===
/** String primitives shared by the server and the client: ASCII lower-casing,
    substring containment (Python's `a in b`, JavaScript's `b.includes(a)`),
    and the whitespace-run replacement behind the detail-link slug. */
module Text {

  predicate IsUpper(c: char) {
    'A' <= c <= 'Z'
  }

  /** Lower-cases one character; only the ASCII letters A-Z change. */
  function LowerChar(c: char): (r: char)
    ensures !IsUpper(r)
    ensures !IsUpper(c) ==> r == c
  {
    if IsUpper(c) then (c as int + 32) as char else c
  }

  /** `s.lower()` / `s.toLowerCase()`, restricted to ASCII. */
  function Lower(s: string): (r: string)
    ensures |r| == |s|
    ensures forall i :: 0 <= i < |s| ==> r[i] == LowerChar(s[i])
  {
    seq(|s|, i requires 0 <= i < |s| => LowerChar(s[i]))
  }

  lemma LowerIdempotent(s: string)
    ensures Lower(Lower(s)) == Lower(s)
  {
  }

  lemma LowerConcat(a: string, b: string)
    ensures Lower(a + b) == Lower(a) + Lower(b)
  {
  }

  /** Lower-casing two words joined by a space keeps the space. */
  lemma LowerTwoWords(a: string, b: string)
    ensures Lower(a + " " + b) == Lower(a) + " " + Lower(b)
  {
    LowerConcat(a + " ", b);
    LowerConcat(a, " ");
    assert Lower(" ") == " ";
  }

  /** `needle` occurs in `hay` starting at position `i`. */
  predicate OccursAt(hay: string, needle: string, i: int) {
    0 <= i && i + |needle| <= |hay| && hay[i..i + |needle|] == needle
  }

  /** `needle` occurs as a contiguous slice of `hay`. */
  predicate Contains(hay: string, needle: string) {
    exists i :: 0 <= i <= |hay| && OccursAt(hay, needle, i)
  }

  lemma ContainsEmpty(hay: string)
    ensures Contains(hay, "")
  {
    assert OccursAt(hay, "", 0);
  }

  lemma ContainsSelf(s: string)
    ensures Contains(s, s)
  {
    assert OccursAt(s, s, 0);
  }

  /** A string contains each of its prefixes. */
  lemma ContainsPrefix(a: string, b: string)
    ensures Contains(a + b, a)
  {
    assert OccursAt(a + b, a, 0);
  }

  /** A string contains each of its suffixes. */
  lemma ContainsSuffix(a: string, b: string)
    ensures Contains(a + b, b)
  {
    assert OccursAt(a + b, b, |a|);
  }

  /** A string never contains a longer one. */
  lemma NotContainsLonger(hay: string, needle: string)
    requires |hay| < |needle|
    ensures !Contains(hay, needle)
  {
  }

  /** A string never contains one holding a character it lacks. */
  lemma NotContainsMissingChar(hay: string, needle: string, k: nat)
    requires k < |needle| && needle[k] !in hay
    ensures !Contains(hay, needle)
  {
    forall i | 0 <= i <= |hay| ensures !OccursAt(hay, needle, i) {
      if i + |needle| <= |hay| {
        assert hay[i..i + |needle|][k] == hay[i + k];
      }
    }
  }

  /** White space as matched by the JavaScript regular-expression class `\s`:
      the ECMAScript WhiteSpace and LineTerminator code points. */
  predicate IsSpace(c: char) {
    || c == ' ' || c == '\t' || c == '\n' || c == '\r'
    || c == '\U{000B}' || c == '\U{000C}' || c == '\U{00A0}' || c == '\U{1680}'
    || ('\U{2000}' <= c <= '\U{200A}')
    || c == '\U{2028}' || c == '\U{2029}' || c == '\U{202F}' || c == '\U{205F}'
    || c == '\U{3000}' || c == '\U{FEFF}'
  }

  predicate NoSpace(s: string) {
    forall i :: 0 <= i < |s| ==> !IsSpace(s[i])
  }

  predicate AllSpace(s: string) {
    forall i :: 0 <= i < |s| ==> IsSpace(s[i])
  }

  /** The longest suffix of `s` that does not start with white space. */
  function DropSpaces(s: string): (r: string)
    ensures |r| <= |s| && r == s[|s| - |r|..]
    ensures AllSpace(s[..|s| - |r|])
    ensures |r| == 0 || !IsSpace(r[0])
  {
    if |s| == 0 || !IsSpace(s[0]) then s else DropSpaces(s[1..])
  }

  /** `s.replace(/\s+/g, '-')`: every maximal run of white space becomes a
      single hyphen, every other character is kept. */
  function ReplaceSpaceRuns(s: string): (r: string)
    ensures NoSpace(r)
    ensures |r| <= |s|
    decreases |s|
  {
    if |s| == 0 then ""
    else if IsSpace(s[0]) then "-" + ReplaceSpaceRuns(DropSpaces(s))
    else [s[0]] + ReplaceSpaceRuns(s[1..])
  }

  /** On text without white space the replacement changes nothing. */
  lemma {:induction false} ReplaceSpaceRunsNoSpace(s: string)
    requires NoSpace(s)
    ensures ReplaceSpaceRuns(s) == s
    decreases |s|
  {
    if |s| > 0 {
      ReplaceSpaceRunsNoSpace(s[1..]);
      assert s == [s[0]] + s[1..];
    }
  }

  /** A word (text without white space) passes through unchanged and the
      replacement continues after it. */
  lemma {:induction false} ReplaceSpaceRunsWord(w: string, rest: string)
    requires NoSpace(w)
    ensures ReplaceSpaceRuns(w + rest) == w + ReplaceSpaceRuns(rest)
    decreases |w|
  {
    if |w| > 0 {
      var s := w + rest;
      assert s[0] == w[0] && !IsSpace(s[0]);
      assert s[1..] == w[1..] + rest;
      assert NoSpace(w[1..]) by {
        forall i | 0 <= i < |w| - 1 ensures !IsSpace(w[1..][i]) {
          assert w[1..][i] == w[i + 1];
        }
      }
      ReplaceSpaceRunsWord(w[1..], rest);
      assert ReplaceSpaceRuns(s) == [s[0]] + ReplaceSpaceRuns(s[1..]);
      assert [w[0]] + (w[1..] + ReplaceSpaceRuns(rest)) == w + ReplaceSpaceRuns(rest);
    } else {
      assert w + rest == rest;
    }
  }

  /** Lower-casing never introduces white space. */
  lemma LowerKeepsNoSpace(s: string)
    requires NoSpace(s)
    ensures NoSpace(Lower(s))
  {
    var l := Lower(s);
    forall i | 0 <= i < |l| ensures !IsSpace(l[i]) {
      assert !IsSpace(s[i]);
    }
  }

  /** Two words joined by one space become the words joined by a hyphen. */
  lemma ReplaceTwoWords(x: string, y: string)
    requires NoSpace(x) && NoSpace(y)
    ensures ReplaceSpaceRuns(x + " " + y) == x + "-" + y
  {
    assert x + " " + y == x + (" " + y);
    ReplaceSpaceRunsWord(x, " " + y);
    ReplaceSpaceRunsRun(" ", y);
    ReplaceSpaceRunsNoSpace(y);
    assert x + ("-" + y) == x + "-" + y;
  }

  /** A non-empty run of white space followed by a non-space character (or by
      the end of the text) becomes exactly one hyphen. */
  lemma {:induction false} ReplaceSpaceRunsRun(sp: string, rest: string)
    requires |sp| > 0 && AllSpace(sp)
    requires |rest| == 0 || !IsSpace(rest[0])
    ensures ReplaceSpaceRuns(sp + rest) == "-" + ReplaceSpaceRuns(rest)
  {
    DropSpacesRun(sp, rest);
  }

  lemma {:induction false} DropSpacesRun(sp: string, rest: string)
    requires AllSpace(sp)
    requires |rest| == 0 || !IsSpace(rest[0])
    ensures DropSpaces(sp + rest) == rest
    decreases |sp|
  {
    if |sp| == 0 {
      assert sp + rest == rest;
    } else {
      assert (sp + rest)[1..] == sp[1..] + rest;
      DropSpacesRun(sp[1..], rest);
    }
  }
}

=== FILE: wizard.dfy ===
/** The four-step profile wizard: the skill and interest lists it edits, the
    step counter and progress bar, and what a submission leads to. */
module Wizard {
  import opened Wrappers
  import opened Model
  import opened Text
  import opened Seqs
  import Api
  import Matching

  /** The wizard's component state. */
  datatype WizardState = WizardState(
    form: Profile,
    step: int,
    skillInput: string,
    interestInput: string,
    loading: bool)

  const StepNames := ["Skills", "Interests", "Experience", "Goals"]
  const FirstStep := 1
  const LastStep := |StepNames|

  const Initial := WizardState(EmptyProfile, FirstStep, "", "", false)

  /** Both lists free of repeats and the step within the wizard. */
  predicate Valid(w: WizardState) {
    && NoDuplicates(w.form.skills)
    && NoDuplicates(w.form.interests)
    && FirstStep <= w.step <= LastStep
  }

  /** Adds a skill unless it is empty or already listed (exact, case-sensitive
      comparison); an accepted skill also clears the skill input. */
  function AddSkill(w: WizardState, s: string): (r: WizardState)
    ensures s != "" && s !in w.form.skills ==>
      r == w.(form := w.form.(skills := w.form.skills + [s]), skillInput := "")
    ensures s == "" || s in w.form.skills ==> r == w
    ensures s != "" ==> s in r.form.skills
    ensures NoDuplicates(w.form.skills) ==> NoDuplicates(r.form.skills)
  {
    if s != "" && s !in w.form.skills then
      assert NoDuplicates(w.form.skills) ==> NoDuplicates(w.form.skills + [s]) by {
        if NoDuplicates(w.form.skills) {
          AppendNoDuplicates(w.form.skills, s);
        }
      }
      w.(form := w.form.(skills := w.form.skills + [s]), skillInput := "")
    else w
  }

  /** Removes every occurrence of a skill, keeping the others in order. */
  function RemoveSkill(w: WizardState, s: string): (r: WizardState)
    ensures r == w.(form := w.form.(skills := r.form.skills))
    ensures IsSubsequence(r.form.skills, w.form.skills)
    ensures forall x :: x in r.form.skills <==> x in w.form.skills && x != s
    ensures NoDuplicates(w.form.skills) ==> NoDuplicates(r.form.skills)
  {
    var kept := Where(w.form.skills, (x: string) => x != s);
    forall x ensures x in kept <==> x in w.form.skills && x != s {
      WhereMember(w.form.skills, (x: string) => x != s, x);
    }
    assert NoDuplicates(w.form.skills) ==> NoDuplicates(kept) by {
      if NoDuplicates(w.form.skills) {
        SubsequenceNoDuplicates(kept, w.form.skills);
      }
    }
    w.(form := w.form.(skills := kept))
  }

  /** Adds an interest, with the same rules as `AddSkill`. */
  function AddInterest(w: WizardState, s: string): (r: WizardState)
    ensures s != "" && s !in w.form.interests ==>
      r == w.(form := w.form.(interests := w.form.interests + [s]), interestInput := "")
    ensures s == "" || s in w.form.interests ==> r == w
    ensures s != "" ==> s in r.form.interests
    ensures NoDuplicates(w.form.interests) ==> NoDuplicates(r.form.interests)
  {
    if s != "" && s !in w.form.interests then
      assert NoDuplicates(w.form.interests) ==> NoDuplicates(w.form.interests + [s]) by {
        if NoDuplicates(w.form.interests) {
          AppendNoDuplicates(w.form.interests, s);
        }
      }
      w.(form := w.form.(interests := w.form.interests + [s]), interestInput := "")
    else w
  }

  /** Removes every occurrence of an interest, keeping the others in order. */
  function RemoveInterest(w: WizardState, s: string): (r: WizardState)
    ensures r == w.(form := w.form.(interests := r.form.interests))
    ensures IsSubsequence(r.form.interests, w.form.interests)
    ensures forall x :: x in r.form.interests <==> x in w.form.interests && x != s
    ensures NoDuplicates(w.form.interests) ==> NoDuplicates(r.form.interests)
  {
    var kept := Where(w.form.interests, (x: string) => x != s);
    forall x ensures x in kept <==> x in w.form.interests && x != s {
      WhereMember(w.form.interests, (x: string) => x != s, x);
    }
    assert NoDuplicates(w.form.interests) ==> NoDuplicates(kept) by {
      if NoDuplicates(w.form.interests) {
        SubsequenceNoDuplicates(kept, w.form.interests);
      }
    }
    w.(form := w.form.(interests := kept))
  }

  /** "Next": one step forward, never past the last. */
  function NextStep(w: WizardState): (r: WizardState)
    ensures r == w.(step := r.step)
    ensures w.step < LastStep ==> r.step == w.step + 1
    ensures w.step >= LastStep ==> r.step == LastStep
  {
    w.(step := if w.step + 1 < LastStep then w.step + 1 else LastStep)
  }

  /** "Back": one step back, never before the first. */
  function PrevStep(w: WizardState): (r: WizardState)
    ensures r == w.(step := r.step)
    ensures w.step > FirstStep ==> r.step == w.step - 1
    ensures w.step <= FirstStep ==> r.step == FirstStep
  {
    w.(step := if w.step - 1 > FirstStep then w.step - 1 else FirstStep)
  }

  /** Going forward from any step but the last and back again returns to it. */
  lemma NextThenBack(w: WizardState)
    requires FirstStep <= w.step < LastStep
    ensures PrevStep(NextStep(w)) == w
  {
  }

  /** Width of the progress bar, in percent. */
  function ProgressWidth(step: int): (r: real)
    ensures FirstStep <= step <= LastStep ==> 0.0 <= r <= 100.0
    ensures r == 0.0 <==> step == FirstStep
    ensures r == 100.0 <==> step == LastStep
  {
    ((step - 1) as real / (|StepNames| - 1) as real) * 100.0
  }

  /** Each step the wizard can show has a distinct, strictly wider bar than
      the one before it. */
  lemma ProgressGrows(w: WizardState)
    requires FirstStep <= w.step < LastStep
    ensures ProgressWidth(w.step) < ProgressWidth(NextStep(w).step)
  {
  }

  /** One user action on the wizard. Typing in a text field is a field
      update; the list buttons and the Enter key add or remove entries. */
  datatype Action =
    | TypeSkill(text: string)
    | AddTypedSkill
    | PickSkill(skill: string)
    | DropSkill(skill: string)
    | TypeInterest(text: string)
    | AddTypedInterest
    | PickInterest(interest: string)
    | DropInterest(interest: string)
    | SetEducation(level: string)
    | SetExperience(years: int)
    | SetRole(role: string)
    | SetGoals(goals: string)
    | SetLocation(location: string)
    | Next
    | Back

  function Apply(w: WizardState, a: Action): WizardState {
    match a
    case TypeSkill(t) => w.(skillInput := t)
    case AddTypedSkill => AddSkill(w, w.skillInput)
    case PickSkill(s) => AddSkill(w, s)
    case DropSkill(s) => RemoveSkill(w, s)
    case TypeInterest(t) => w.(interestInput := t)
    case AddTypedInterest => AddInterest(w, w.interestInput)
    case PickInterest(s) => AddInterest(w, s)
    case DropInterest(s) => RemoveInterest(w, s)
    case SetEducation(v) => w.(form := w.form.(educationLevel := v))
    case SetExperience(y) => w.(form := w.form.(experienceYears := y))
    case SetRole(v) => w.(form := w.form.(currentRole := v))
    case SetGoals(v) => w.(form := w.form.(goals := v))
    case SetLocation(v) => w.(form := w.form.(location := v))
    case Next => NextStep(w)
    case Back => PrevStep(w)
  }

  function Run(w: WizardState, actions: seq<Action>): WizardState
    decreases |actions|
  {
    if |actions| == 0 then w else Run(Apply(w, actions[0]), actions[1..])
  }

  /** Every action keeps the lists free of repeats and the step in range. */
  lemma ApplyPreservesValid(w: WizardState, a: Action)
    requires Valid(w)
    ensures Valid(Apply(w, a))
  {
  }

  /** No sequence of actions, starting from the initial state, can produce a
      repeated skill or interest or leave the four steps. */
  lemma {:induction false} RunPreservesValid(w: WizardState, actions: seq<Action>)
    requires Valid(w)
    ensures Valid(Run(w, actions))
    decreases |actions|
  {
    if |actions| > 0 {
      ApplyPreservesValid(w, actions[0]);
      RunPreservesValid(Apply(w, actions[0]), actions[1..]);
    }
  }

  lemma InitialValid()
    ensures Valid(Initial)
  {
  }

  /** Adding a skill never lowers any career's match score. */
  lemma AddSkillNeverLowersScore(w: WizardState, s: string, c: Career)
    ensures Matching.MatchScore(w.form, c) <= Matching.MatchScore(AddSkill(w, s).form, c)
  {
    var r := AddSkill(w, s);
    assert r.form == w.form.(skills := r.form.skills);
    Matching.MoreSkillsNeverLowerScore(w.form, r.form.skills, c);
  }

  /** The text a failed submission reports: the response's `detail` when
      present and non-empty, else the error message when non-empty, else a
      fixed sentence (JavaScript's `||` skips empty strings). */
  function ErrorText(e: Api.ClientError): (r: string)
    ensures r != ""
    ensures e.detail.Some? && e.detail.value != "" ==> r == e.detail.value
    ensures (e.detail.None? || e.detail.value == "") && e.message != "" ==> r == e.message
  {
    if e.detail.Some? && e.detail.value != "" then e.detail.value
    else if e.message != "" then e.message
    else DefaultErrorText
  }

  const DefaultErrorText := "Failed to get recommendations. Please try again."

  /** The fixed sentence does not mention the unreachable-server condition:
      it has no capital 'B'. */
  lemma DefaultErrorTextIsGeneric()
    ensures !Contains(DefaultErrorText, Api.ServerNotRunning)
  {
    DefaultErrorTextLacksB();
    NotContainsMissingChar(DefaultErrorText, Api.ServerNotRunning, 0);
  }

  lemma DefaultErrorTextLacksB()
    ensures 'B' !in DefaultErrorText
  {
    var a, b, c := "Failed to get ", "recommendations.", " Please try again.";
    assert DefaultErrorText == a + b + c;
    assert 'B' !in a && 'B' !in b && 'B' !in c;
  }

  /** The two alerts: start-the-server instructions, or the error text. */
  datatype Alert = StartServerAlert | ErrorAlert(text: string)

  function AlertFor(e: Api.ClientError): (r: Alert)
    ensures r.StartServerAlert? <==> Contains(ErrorText(e), Api.ServerNotRunning)
    ensures r.ErrorAlert? ==> r.text == ErrorText(e)
  {
    var text := ErrorText(e);
    if Contains(text, Api.ServerNotRunning) then StartServerAlert else ErrorAlert(text)
  }

  /** Where a submission leads: the results page with the response body and
      the submitted profile as navigation state, or an alert. */
  datatype Outcome =
    | ShowResults(body: RecommendationBody, profile: Profile)
    | ShowAlert(alert: Alert)

  /** `handleSubmit`. `response` is the transport outcome of the request,
      before the request wrapper's remapping. The wizard is left unchanged
      except that it is no longer loading. */
  function Submit(w: WizardState, response: Result<RecommendationBody, Api.ClientError>): (r: (WizardState, Outcome))
    ensures r.0 == w.(loading := false)
    ensures response.Success? <==> r.1.ShowResults?
    ensures response.Success? ==> r.1 == ShowResults(response.value, w.form)
    ensures response.Failure? ==>
      r.1 == ShowAlert(AlertFor(Api.Classify(response.error, Api.RecommendationsUnreachable)))
  {
    var outcome :=
      match Api.GetRecommendations(response)
      case Success(body) => ShowResults(body, w.form)
      case Failure(e) => ShowAlert(AlertFor(e));
    (w.(loading := false), outcome)
  }

  /** An unreachable server always produces the start-the-server alert,
      because the wrapper's replacement text names the condition. */
  lemma UnreachableShowsStartServer(w: WizardState, e: Api.ClientError)
    requires Api.Unreachable(e)
    ensures Submit(w, Failure(e)).1 == ShowAlert(StartServerAlert)
  {
    Api.UnreachableTextsNameCondition();
  }

  /** Any other failure is reported with its own text, unless that text
      itself mentions the condition. */
  lemma OtherFailureShowsText(w: WizardState, e: Api.ClientError)
    requires !Api.Unreachable(e)
    requires !Contains(ErrorText(e), Api.ServerNotRunning)
    ensures Submit(w, Failure(e)).1 == ShowAlert(ErrorAlert(ErrorText(e)))
  {
  }

  /** A bare HTTP 500 without a usable detail or message gets the fixed
      sentence. */
  lemma EmptyErrorShowsDefault(w: WizardState)
    ensures Submit(w, Failure(Api.ClientError(None, "", Some("")))).1 ==
      ShowAlert(ErrorAlert(DefaultErrorText))
  {
    DefaultErrorTextIsGeneric();
  }
}

=== FILE: wrappers.dfy ===
/** Failure-compatible result types used throughout the model: an optional
    value (Python's `None`, a missing JSON field) and a value-or-error result
    (a raised exception or a rejected promise). */
module Wrappers {

  datatype Option<+T> = None | Some(value: T) {

    /** The value, or `default` when absent (Python's `dict.get(k, default)`,
        JavaScript's `x || default` on an optional array). */
    function GetOr(default: T): T {
      match this
      case Some(v) => v
      case None => default
    }
  }

  datatype Result<+R, +E> = Success(value: R) | Failure(error: E)
}
